=== FILE: README.md ===
# School catalog backend: a Dafny model

This project models the REST backend of a small school catalog. Professors
manage students, subjects and grades. Students see their own subjects and
grades. Everyone registers, logs in and edits their own profile. The backend
stores three tables:

- **users**: id, first and last name, unique email, password hash, and a role
  of `professor` or `student`.
- **subjects**: id and name.
- **grades**: id, a nullable value, and nullable references `studentId` and
  `subjectId`. A grade row is also the link that says a subject is assigned
  to a student.

Requests pass through a middleware chain before their handler:

- `saveUser` refuses a registration whose email is taken.
- `authenticateToken` reads the bearer token of the `Authorization` header.
- `authorizeRole` compares the token's role with the role the route needs.

The model has these parts:

- `wrappers.dfy`: `Option`.
- `tables.dfy`: the ORM's row operations on a table held as a sequence of rows
  in storage order. A `findOne` without an ORDER BY may return any match; the
  model takes the first match in storage order. `findAll` filters. `update`
  rewrites the matching rows and reports how many there were. `destroy`
  deletes the matching rows and reports how many there were.
- `schema.dfy`: the rows, the store and its invariant `Valid`, and the lookups.
  It also models the grade table's foreign keys, which refuse a dangling
  reference, and the `SET NULL` cascade when a user or subject is deleted.
- `credentials.dfy`: password hashing and token signing as opaque functions,
  passed in as a `Crypto` value. `Sound` holds the only facts the catalog
  relies on.
- `http.dfy`: the responses, each with the exact message text the handlers
  send.
- `auth.dfy`: the three middleware functions, including the
  `split(' ')[1]` token extraction.
- `users.dfy`, `students.dfy`, `subjects.dfy`, `grades.dfy`: the handlers of
  the four controllers. Each is a function from a store and the request
  fields to a reply and the next store.
- `routes.dfy`: the route table, with mount prefixes, verbs, paths and
  middleware chains. It runs a request through its chain and on to its
  handler.

A handler's result is a `Reply(response, store)`. Every writing handler is
proved to keep `Valid`, and so is the whole request pipeline. `Valid` means
the id counters are fresh, primary keys are unique, emails and subject names
are unique, and no grade refers to a missing user or subject.

Behaviours of the code worth knowing:

- `updateStudent` and `deleteStudent` filter on the id only, so they reach a
  professor's row too. `ProfessorReachable` states this.
- `deleteGrade` does not delete. It sets the value to null, and the pair stays
  linked. `ClearIsNotRemove` contrasts it with `removeSubjectFromStudent`.
- `updateSubjects` checks the new name against every subject, the renamed one
  included. So renaming a subject to its own name is refused.
  `RenameToOwnNameRejected` states this.
- A failed login answers the same whether the email is unknown or the password
  is wrong. `LoginFailuresAlike` states this.
- `register` takes the role from the request body, and the route has no
  authentication. So anyone can register as a professor and then pass every
  professor-only check. `OnlyProfessorsAdminister` guarantees only that the
  token verifies to the professor role, not who obtained it.

## Model

| member | source | states |
|---|---|---|
| Tables.FindOne | controller/gradesController.js:83-88 | `findOne` returns a row matching the filter, and nothing exactly when no row matches |
| Tables.Count | controller/studentsController.js:98-108 | the affected-row count is at most the table's size, and zero exactly when no row matches |
| Tables.Where | controller/studentsController.js:10-14 | `findAll` returns exactly the rows matching the filter, one entry per matching row |
| Tables.UpdateWhere | controller/gradesController.js:105-113 | `update` keeps the row count and position of every row, rewrites exactly the rows matching the filter, and leaves every other row as it was |
| Tables.Destroy | controller/subjectsController.js:195-200 | `destroy` keeps exactly the rows not matching the filter, and removes as many rows as match |
| Tables.CountUpdateWhere | controller/gradesController.js:90-91 | an update that cannot change whether a row satisfies a property leaves the number of rows with that property unchanged; proved by induction over the table |
| Schema.FindStudent | controller/subjectsController.js:102-107 | the lookup by id and student role finds a row exactly when a user with that id has the student role, and the row it finds is such a user |
| Schema.FindPair | controller/gradesController.js:83-88 | the lookup of a grade row by student and subject finds one exactly when the pair is linked |
| Schema.SubjectsOf | models/db.js:21-27 | a user's `Subjects` through the grade table are exactly the subjects with a grade row linking them to that user, each subject row once |
| Schema.StudentsOf | models/db.js:28-34 | a subject's `Students` through the grade table are exactly the users with a grade row linking them to that subject |
| Schema.InsertGrade | models/gradeModel.js:13-28 | creating a grade row succeeds exactly when each non-null reference names an existing user or subject; on success exactly one row with the next id is appended |
| Schema.InsertedGradeIdIsFresh | models/gradeModel.js:3-8 | the auto-incremented id of a new grade row is not used by any existing row, and the insert keeps the store well formed |
| Schema.DestroyUser | models/db.js:48-51 | deleting a user removes exactly the users with that id, keeping the other rows in order, reports how many it deleted (none exactly when there was none), and sets `studentId` to null on that user's grade rows while leaving every other column alone |
| Schema.DestroySubject | models/db.js:53-56 | deleting a subject removes exactly the subjects with that id, keeping the other rows in order, reports how many it deleted, and sets `subjectId` to null on that subject's grade rows while leaving every other column alone |
| Schema.DestroyUserKeepsValid | models/db.js:36-40 | after the SET NULL cascade no grade refers to the deleted user, and the store stays well formed |
| Schema.DestroySubjectKeepsValid | models/db.js:42-46 | after the SET NULL cascade no grade refers to the deleted subject, and the store stays well formed |
| Auth.Split | middleware/auth.js:26 | `split(' ')` yields at least one field, and no field contains a space |
| Auth.JoinSplit | middleware/auth.js:26 | joining the fields of `split(' ')` with single spaces gives the header back, so the split loses nothing |
| Auth.BearerHeaderToken | middleware/auth.js:25-28 | a header `scheme token` or `scheme token rest` whose scheme and token are non-empty words yields exactly that token |
| Auth.NoSecondField | middleware/auth.js:25-28 | a header with no space, or with two spaces in a row after its first word, yields no token |
| Auth.ExtractToken | middleware/auth.js:25-28 | a character scan for the first space and the end of the following field computes exactly the second field of `split(' ')`, or no token when it is missing or empty |
| Auth.SaveUser | middleware/auth.js:5-22 | registration stops with "Email is already used." exactly when some user already has that email |
| Auth.AuthenticateToken | middleware/auth.js:24-35 | no token gives "Access denied", a token that does not verify gives "Error!", and otherwise the verified payload becomes the request identity |
| Auth.AuthorizeRole | middleware/auth.js:37-44 | the request stops with the role message exactly when the identity's role differs from the required one |
| Auth.IssuedTokenAuthenticates | controller/usersController.js:7-13 | a token signed over a user's `{id, role}` and sent as `Bearer <token>` authenticates as exactly that id and role |
| Subjects.Enrolments | controller/subjectsController.js:10-18 | a subject's included students are exactly the users linked to it, one entry per linked user, each with the value on its linking grade row |
| Subjects.GetAllSubjects | controller/subjectsController.js:7-29 | lists every subject in storage order, each with exactly its linked students; nothing changes |
| Subjects.GetSubjectById | controller/subjectsController.js:31-44 | the subject with that id, or "Subject not found" exactly when there is none |
| Subjects.OwnGrades | controller/subjectsController.js:53-59 | the grades included with a subject are exactly the caller's grade rows for that subject, each row once |
| Subjects.StudentSubject | controller/subjectsController.js:46-67 | the caller sees exactly the subjects it has a grade row for, each subject once, with only its own rows for that subject; nothing changes |
| Subjects.AddSubjects | controller/subjectsController.js:69-91 | a name already in use is refused with nothing changed; otherwise exactly one subject with a fresh id and that name is added |
| Subjects.AssignSubjectToStudent | controller/subjectsController.js:93-133 | a missing id, or a subject id of `0`, gives "Missing studentId or subjectId"; an unknown student or subject, or a user who is not a student, gives "Student or Subject not found"; otherwise one grade row with a null value links the pair, and the pair's row count grows by one |
| Subjects.UpdateSubjects | controller/subjectsController.js:135-160 | a name held by any subject is refused; an unknown id gives "Subject not found"; otherwise only the subjects with that id are renamed |
| Subjects.DeleteSubjects | controller/subjectsController.js:162-178 | "Subject not found" with nothing changed exactly when there is no such subject; otherwise the subject is gone and its grade rows stay |
| Subjects.RemoveSubjectFromStudent | controller/subjectsController.js:180-207 | an unlinked pair gives the 404 message with nothing changed; otherwise exactly the pair's grade rows are deleted and no other row |
| Subjects.RenameToOwnNameRejected | controller/subjectsController.js:139-144 | renaming a subject to the name it already has is always refused as a duplicate |
| Subjects.AssignLinks | controller/subjectsController.js:119-122 | after a successful assignment the subject is among the student's `Subjects` and the student among the subject's `Students` |
| Subjects.RemoveUnlinks | controller/subjectsController.js:195-200 | after a removal the pair has no grade row left, even if it had been assigned several times |
| Subjects.AddSubjectsKeepsValid | controller/subjectsController.js:79 | adding a subject keeps the store well formed, including unique subject names |
| Subjects.UpdateSubjectsKeepsValid | controller/subjectsController.js:146-148 | renaming keeps the store well formed, including unique subject names |
| Subjects.AssignSubjectKeepsValid | controller/subjectsController.js:119-122 | creating the linking row keeps the store well formed |
| Subjects.DeleteSubjectsKeepsValid | controller/subjectsController.js:165-167 | deleting a subject keeps the store well formed |
| Subjects.RemoveSubjectKeepsValid | controller/subjectsController.js:195-200 | deleting the pair's grade rows keeps the store well formed |
| Users.Patched | controller/usersController.js:99-105 | an updated row keeps its id and role, takes each given name and email, keeps the absent ones, and its password is rehashed exactly when a non-empty new password is given; a patch that writes nothing leaves the row as it was |
| Users.UpdateUserRow | controller/usersController.js:107-109 | the update by id is refused exactly when a user with the id exists and the new email belongs to another user; otherwise it reports no rows exactly when no user has the id or the patch writes no column, and only that user's row changes |
| Users.Register | controller/usersController.js:23-48 | a taken email gives "Internal Server Error" with nothing changed; otherwise one user is appended who stores the hash of the password, with role defaulting to student and a fresh id, and the answer carries a token signed over its `{id, role}` |
| Users.Login | controller/usersController.js:50-76 | nothing changes; a session is given exactly when a user with that email has a stored hash matching the password, and carries that user and its signed token; otherwise "Authentication failed" |
| Users.GetProfile | controller/usersController.js:78-94 | the caller's own row, or "User not found." exactly when it does not exist |
| Users.UpdateProfile | controller/usersController.js:96-120 | only the caller's own row changes, becoming the patched row; "User not found" when no row has the caller's id or the body writes no column |
| Users.RegisterThenLogin | controller/usersController.js:23-76 | with a sound hash, logging in with the registered email and password gives exactly the session registration returned |
| Users.LoginFailuresAlike | controller/usersController.js:66-71 | any two failed logins get the same answer and change nothing, so a wrong password cannot be told from an unknown email |
| Users.RegisterKeepsValid | controller/usersController.js:27-33 | registration keeps the store well formed, including unique emails |
| Users.UpdateUserRowKeepsValid | controller/studentsController.js:80-82 | the update by id keeps the store well formed, including unique emails |
| Users.UpdateProfileKeepsValid | controller/usersController.js:107-109 | a profile update keeps the store well formed |
| Grades.Joined | controller/gradesController.js:9-22 | a grade row includes its student's name and its subject's name exactly when the reference is non-null and names an existing row |
| Grades.GetAllGrades | controller/gradesController.js:7-32 | lists every grade row in storage order with its included names; nothing changes |
| Grades.GetGradeById | controller/gradesController.js:34-60 | the grade row with that id and its names, or "Grade not found" exactly when there is none |
| Grades.AddOrUpdateGrade | controller/gradesController.js:62-100 | a student lookup that fails gives "Student not found."; a linked pair has its found row take the value, with the row count unchanged; an unlinked pair gets exactly one new row with the value; an unknown subject is refused by the foreign key |
| Grades.UpdateGrade | controller/gradesController.js:102-122 | "Grade not found" exactly when no row has the id; otherwise exactly the rows with that id take the value |
| Grades.DeleteGrade | controller/gradesController.js:124-145 | "Grade not found" exactly when no row has the id; otherwise that row's value becomes null and every id and reference stays |
| Grades.JoinsResolve | controller/gradesController.js:36-48 | in a well-formed store every non-null reference is included, so a missing name means a reference set to null |
| Grades.UpsertTwice | controller/gradesController.js:83-92 | grading an unlinked pair twice leaves exactly one row for the pair, holding the second value |
| Grades.UpsertCreatesOnlyRow | controller/gradesController.js:92 | the first grading of an unlinked pair creates the pair's only row |
| Grades.UpsertRewritesOnlyRow | controller/gradesController.js:90-91 | grading a pair that has one row rewrites that row's value and creates nothing |
| Grades.ClearIsNotRemove | controller/gradesController.js:133 | after clearing a grade the pair is still linked, but after removing the subject from the student it is not |
| Grades.AddOrUpdateGradeKeepsValid | controller/gradesController.js:90-92 | the upsert keeps the store well formed |
| Grades.UpdateGradeKeepsValid | controller/gradesController.js:105-111 | overwriting a value keeps the store well formed |
| Grades.DeleteGradeKeepsValid | controller/gradesController.js:133 | clearing a value keeps the store well formed |
| Students.ViewOf | controller/studentsController.js:14-22 | a student's included subjects are exactly those it has a grade row for, each subject once |
| Students.GetAllStudents | controller/studentsController.js:7-29 | lists exactly the users with the student role, each with its subjects; nothing changes |
| Students.GetStudentById | controller/studentsController.js:32-60 | the student with that id and its subjects, each once, or "Student not found" exactly when no user with that id has the student role |
| Students.AddStudent | controller/studentsController.js:62-66 | registration with the role forced to student: the given names, email and hashed password, a fresh id, and a token signed over the id and the student role; a taken email gives "Internal Server Error" |
| Students.UpdateStudent | controller/studentsController.js:68-93 | only the row with that id changes, becoming the patched row; "Student not found" exactly when no row has the id or the body writes no column |
| Students.DeleteStudent | controller/studentsController.js:95-113 | the user with that id is deleted with its grade rows' `studentId` set to null, so no grade refers to it any more; "Student not found" with nothing changed exactly when there is none |
| Students.AddThenGetStudent | controller/studentsController.js:34-53 | a student just added is found by id, as a student and with no subjects |
| Students.ProfessorReachable | controller/studentsController.js:80-82 | the update (of a body that writes some column) and the delete by id succeed on a professor's row, while the lookup by id does not see it |
| Students.AddStudentKeepsValid | controller/studentsController.js:62-66 | adding a student keeps the store well formed |
| Students.UpdateStudentKeepsValid | controller/studentsController.js:80-82 | updating a student keeps the store well formed |
| Students.DeleteStudentKeepsValid | controller/studentsController.js:98-102 | deleting a student keeps the store well formed |
| Routes.Guards | routes/userRoutes.js:27-91 | role checks come only straight after authentication, and at most one per route; only registration has the email check, and only login has no middleware |
| Routes.RunGuards | middleware/auth.js:24-44 | a request that passes an authentication has an identity attached, and one that passes a final role check carries that role |
| Routes.Handle | app.js:33-36 | a request stopped by its middleware gets that middleware's answer and changes nothing |
| Routes.StudentEndpoints | routes/subjectRoutes.js:20-202 | a student's token opens exactly registration, login, the own-profile routes and the own-subjects route; a professor's token opens every route |
| Routes.NoTokenNoAccess | middleware/auth.js:25-28 | on every authenticated route a header without a token gets "Access denied" and changes nothing |
| Routes.BadTokenRejected | middleware/auth.js:30-31 | on every authenticated route a token that does not verify gets "Error!" and changes nothing |
| Routes.StudentTokenStopped | middleware/auth.js:37-44 | a verified student token on a professor's route gets the role message and changes nothing |
| Routes.OnlyProfessorsAdminister | routes/gradeRoutes.js:20-129 | a request reaching the handler of a professor's route was made with a token that verifies to the professor role |
| Routes.LoginThenProfile | routes/userRoutes.js:49-67 | the token a login returns, sent as `Bearer <token>`, fetches exactly the logged-in user's profile |
| Routes.ReadsChangeNothing | routes/studentRoutes.js:20-45 | no GET route and no login changes the store |
| Routes.DispatchKeepsValid | models/db.js:36-56 | every handler keeps the store well formed |
| Routes.HandleKeepsValid | app.js:33-36 | every request, whatever its route, headers and body, keeps the store well formed |

## Left out

- Tables.FindOne: a `findOne` without an ORDER BY has no defined row. The
  model takes the first match in storage order. This decides which pair row
  `addOrUpdateGrade` rewrites when a pair has several rows.
- Email and subject-name lookups use exact character-by-character equality.
  In the program the database collation decides them, and a case-insensitive
  collation would treat two emails differing only in case as a clash. This
  affects `saveUser`, `login`, `addSubjects` and `updateSubjects`. The
  collation is not modelled.
- The Swagger documentation and the database connection are not modelled. Of
  `app.js`, only the mount prefixes and the final error handler are modelled.
- The cookie `generateTokenAndSetCookie` sets, and the token's one-day expiry,
  are not modelled. An expired token is one that `verify` rejects.
- bcrypt's salt and cost factor are not modelled. `hash` is a deterministic
  function, and only `compare(p, hash(p))` is assumed.
- HTTP status codes are not modelled, only the response bodies. The 404s of
  `getGradeById`, `deleteGrade` and `removeSubjectFromStudent` are therefore
  plain responses.
- Concurrency is not modelled: each request runs alone on the store.
- `userModel.js` is not part of this model. Email uniqueness is modelled as a
  unique column that refuses a duplicate with "Internal Server Error".
- The "No grades found", "No subjects found", "Failed to create subject",
  "Faield to assign subject to student.", "Failed to add/update grade.",
  "Data you introduced are incorrect." and "Error setting grade value to null."
  branches are not modelled. They test results the ORM always provides.
- Database failures other than the email constraint and the grade foreign keys
  are not modelled. Those other failures land in each handler's
  "Internal Server Error" catch.
- The rethrow in `studentSubject`'s catch is not modelled. Its query does not
  fail in the model.
- Grades.AddOrUpdateGrade: whether `findByPk` honours its `where: {role}`
  option is a parameter (`roleFilter`), not a fixed choice.
- Grades.AddOrUpdateGrade: a missing `subjectId` in the body is not modelled.
  The ORM would reject a `where` on `undefined`.
- Subjects.AssignSubjectToStudent: the subject id is modelled as a JSON
  number, so `0` counts as missing. A subject id sent as the string `"0"`
  is not modelled; it is truthy and would reach the lookup.
- Subjects.Enrolments: a user linked to a subject by several grade rows is
  listed once, with the value of the first such row. The ORM's handling of
  duplicate join rows is not modelled.
- Grades.UpdateGrade: a body without `value` is not modelled. The model's
  `None` is an explicit `null`, which the update writes.
- Grades.AddOrUpdateGrade: a body without `value` is not modelled. The
  model's `None` is an explicit `null`, which the update or create writes.
- Users.UpdateUserRow: fields absent from the body are left unchanged, as the
  ORM drops `undefined` values. A body that writes no column reports no rows,
  as `Model.update` does when only `updatedAt` would be set, so the handlers
  answer "not found" for it. An empty-string password counts as no password.
- Students.GetAllStudents: a student linked to a subject by several grade rows
  lists that subject once. The ORM's handling of duplicate join rows is not
  modelled.
- Applying `SET NULL` to `studentId` and `subjectId` is modelled as the
  associations declare it. How a database treats these columns as part of a
  composite primary key is not modelled.
- Integer widths are not modelled. Ids and grade values are unbounded integers.

=== FILE: auth.dfy ===
/** The request middleware: the email guard in front of registration, bearer
    token authentication, and the single-role authorization check. */
module Auth {
  import opened Wrappers
  import opened Schema
  import opened Credentials
  import opened Http

  /** What a guard that does not attach an identity decides: call the next
      handler, or answer now. */
  datatype Verdict = Next | Halt(response: Response)

  /** What `authenticateToken` decides: the verified payload becomes the
      request identity, or the request is answered now. */
  datatype Authentication = Authenticated(identity: Identity) | Refused(response: Response)

  // ---------------------------------------------------------------------------
  // `authHeader.split(' ')[1]`
  // ---------------------------------------------------------------------------

  /** The position of the first space of `s` at or after `from`, or `|s|`. */
  function NextSpace(s: string, from: nat): (i: nat)
    requires from <= |s|
    ensures from <= i <= |s|
    ensures i < |s| ==> s[i] == ' '
    ensures forall k :: from <= k < i ==> s[k] != ' '
    decreases |s| - from
  {
    if from == |s| || s[from] == ' ' then from else NextSpace(s, from + 1)
  }

  /** `s.split(' ')`: the fields between single spaces, empty fields included. */
  function Split(s: string): (fields: seq<string>)
    ensures |fields| >= 1
    ensures forall f :: f in fields ==> ' ' !in f
    decreases |s|
  {
    var i := NextSpace(s, 0);
    if i == |s| then [s] else [s[..i]] + Split(s[i + 1..])
  }

  /** `fields.join(' ')`. */
  function Join(fields: seq<string>): string
    requires |fields| >= 1
  {
    if |fields| == 1 then fields[0] else fields[0] + " " + Join(fields[1..])
  }

  /** The bearer token of an `Authorization` header: its second
      space-separated field, when the header is present and non-empty and that
      field exists and is non-empty (an absent or empty one is falsy). */
  function HeaderToken(header: Option<string>): Option<Token> {
    if header.None? || header.value == [] then None
    else
      var fields := Split(header.value);
      if |fields| < 2 || fields[1] == [] then None else Some(fields[1])
  }

  /** The first space sits where every earlier character is not a space. */
  lemma {:induction false} NextSpaceIs(s: string, from: nat, i: nat)
    requires from <= i <= |s|
    requires forall k :: from <= k < i ==> s[k] != ' '
    requires i < |s| ==> s[i] == ' '
    ensures NextSpace(s, from) == i
    decreases i - from
  {
    if from < i {
      NextSpaceIs(s, from + 1, i);
    }
  }

  /** Splitting a string and joining the fields with single spaces gives the
      string back, so no character is lost or invented by the split. */
  lemma {:induction false} JoinSplit(s: string)
    ensures Join(Split(s)) == s
    decreases |s|
  {
    var i := NextSpace(s, 0);
    if i < |s| {
      JoinSplit(s[i + 1..]);
      assert s == s[..i] + " " + s[i + 1..];
    }
  }

  /** The first two fields of a string with a space in it. */
  lemma SplitFirstTwo(s: string, i: nat, j: nat)
    requires i < |s| && i + 1 <= j <= |s|
    requires forall k :: 0 <= k < i ==> s[k] != ' '
    requires s[i] == ' '
    requires forall k :: i + 1 <= k < j ==> s[k] != ' '
    requires j < |s| ==> s[j] == ' '
    ensures |Split(s)| >= 2
    ensures Split(s)[0] == s[..i]
    ensures Split(s)[1] == s[i + 1..j]
  {
    NextSpaceIs(s, 0, i);
    var t := s[i + 1..];
    NextSpaceIs(t, 0, j - (i + 1));
    assert t[..j - (i + 1)] == s[i + 1..j];
  }

  /** A header "scheme token rest…" whose scheme and token are non-empty
      words yields that token, whatever follows it. */
  lemma {:induction false} BearerHeaderToken(scheme: string, token: Token, rest: string)
    requires scheme != [] && ' ' !in scheme
    requires token != [] && ' ' !in token
    ensures HeaderToken(Some(scheme + " " + token)) == Some(token)
    ensures HeaderToken(Some(scheme + " " + token + " " + rest)) == Some(token)
  {
    var h := scheme + " " + token;
    SplitFirstTwo(h, |scheme|, |h|);
    assert h[|scheme| + 1..] == token;
    var h' := h + " " + rest;
    SplitFirstTwo(h', |scheme|, |h|);
    assert h'[|scheme| + 1..|h|] == token;
  }

  /** A header without a space, or with nothing between its first space and
      the next one, carries no token. */
  lemma {:induction false} NoSecondField(header: string)
    requires ' ' !in header || (exists i :: 0 <= i < |header| - 1 && header[i] == ' ' && header[i + 1] == ' ' && ' ' !in header[..i])
    ensures HeaderToken(Some(header)) == None
  {
    if ' ' !in header {
      NextSpaceIs(header, 0, |header|);
    } else {
      var i :| 0 <= i < |header| - 1 && header[i] == ' ' && header[i + 1] == ' ' && ' ' !in header[..i];
      assert forall k :: 0 <= k < i ==> header[k] != ' ' by {
        forall k | 0 <= k < i ensures header[k] != ' ' {
          assert header[k] == header[..i][k];
        }
      }
      SplitFirstTwo(header, i, i + 1);
    }
  }

  /** The scan `authenticateToken` performs: find the first space, then the
      end of the field after it. */
  method ExtractToken(header: Option<string>) returns (token: Option<Token>)
    ensures token == HeaderToken(header)
  {
    if header.None? || header.value == [] {
      return None;
    }
    var s := header.value;
    var i := 0;
    while i < |s| && s[i] != ' '
      invariant 0 <= i <= |s|
      invariant forall k :: 0 <= k < i ==> s[k] != ' '
    {
      i := i + 1;
    }
    if i == |s| {
      NextSpaceIs(s, 0, i);
      return None;
    }
    var j := i + 1;
    while j < |s| && s[j] != ' '
      invariant i + 1 <= j <= |s|
      invariant forall k :: i + 1 <= k < j ==> s[k] != ' '
    {
      j := j + 1;
    }
    SplitFirstTwo(s, i, j);
    if j == i + 1 {
      token := None;
    } else {
      token := Some(s[i + 1..j]);
    }
  }

  // ---------------------------------------------------------------------------
  // The three middleware functions
  // ---------------------------------------------------------------------------

  /** `saveUser`: registration stops with "Email is already used." exactly
      when some user already has the requested email. */
  function SaveUser(st: Store, email: string): (r: Verdict)
    ensures r.Halt? <==> exists u :: u in st.users && u.email == email
    ensures r.Halt? ==> r.response == EmailAlreadyUsed
  {
    if FindUserByEmail(st, email).Some? then Halt(EmailAlreadyUsed) else Next
  }

  /** `authenticateToken`: no token is "Access denied", a token that does not
      verify is "Error!", and a verified token's payload becomes the identity. */
  function AuthenticateToken(c: Crypto, header: Option<string>): (r: Authentication)
    ensures HeaderToken(header).None? ==> r == Refused(AccessDenied)
    ensures HeaderToken(header).Some? && c.verify(HeaderToken(header).value).None? ==> r == Refused(TokenRejected)
    ensures r.Authenticated? <==> HeaderToken(header).Some? && c.verify(HeaderToken(header).value).Some?
    ensures r.Authenticated? ==> Some(r.identity) == c.verify(HeaderToken(header).value)
  {
    match HeaderToken(header)
    case None => Refused(AccessDenied)
    case Some(token) =>
      match c.verify(token)
      case None => Refused(TokenRejected)
      case Some(identity) => Authenticated(identity)
  }

  /** `authorizeRole(role)`: the request stops with the role message exactly
      when the identity's role differs from the one required. */
  function AuthorizeRole(identity: Identity, role: Role): (r: Verdict)
    ensures r.Halt? <==> identity.role != role
    ensures r.Halt? ==> r.response == MissingRole
  {
    if identity.role != role then Halt(MissingRole) else Next
  }

  /** A token the server issued, sent as "Bearer <token>", authenticates as
      exactly the user it was issued for. */
  lemma IssuedTokenAuthenticates(c: Crypto, u: User)
    requires Sound(c)
    ensures AuthenticateToken(c, Some("Bearer " + IssueToken(c, u))) == Authenticated(Identity(u.id, u.role))
  {
    var token := c.sign(Identity(u.id, u.role));
    assert token != [] && ' ' !in token;
    BearerHeaderToken("Bearer", token, []);
    assert "Bearer " + token == "Bearer" + " " + token;
    assert c.verify(token) == Some(Identity(u.id, u.role));
  }
}

=== FILE: credentials.dfy ===
/** Password hashing and session tokens, as opaque functions.
    bcrypt and JSON Web Tokens are outside the model: a `Crypto` value supplies
    the four primitives, and `Sound` states the only facts the catalog relies on. */
module Credentials {
  import opened Wrappers
  import opened Schema

  type Token = string

  /** The token payload `{id, role}`, attached to a request as `req.user`. */
  datatype Identity = Identity(id: nat, role: Role)

  /** `bcrypt.hash`, `bcrypt.compare`, `jwt.sign` and `jwt.verify` with the
      process-wide secret; `verify` yields nothing for a bad or expired token. */
  datatype Crypto = Crypto(
    hash: string -> Digest,
    compare: (string, Digest) -> bool,
    sign: Identity -> Token,
    verify: Token -> Option<Identity>)

  /** A password always matches its own digest, a signed payload always
      verifies back to itself, and a signed token is a non-empty word. */
  ghost predicate Sound(c: Crypto) {
    && (forall p :: c.compare(p, c.hash(p)))
    && (forall i :: c.verify(c.sign(i)) == Some(i))
    && (forall i :: c.sign(i) != [] && ' ' !in c.sign(i))
  }

  /** The payload `generateTokenAndSetCookie` signs for a user. */
  function Payload(u: User): Identity {
    Identity(u.id, u.role)
  }

  /** The token `generateTokenAndSetCookie` returns (the cookie is not modelled). */
  function IssueToken(c: Crypto, u: User): Token {
    c.sign(Payload(u))
  }
}

=== FILE: grades.dfy ===
/** The grade handlers: listing and lookup with the student's and subject's
    names joined in, the find-then-update-else-create upsert, overwriting a
    value by id, and the soft delete that clears a value to null. */
module Grades {
  import opened Wrappers
  import opened Tables
  import opened Schema
  import opened Http
  import Subjects

  /** A grade row with `Student` (first and last name) and `Subject` (name)
      included; a null or dangling reference includes nothing. */
  function Joined(st: Store, g: Grade): (v: GradeView)
    ensures v.grade == g
    ensures v.student.Some? <==> g.studentId.Some? && UserExists(st, g.studentId.value)
    ensures v.subject.Some? <==> g.subjectId.Some? && SubjectExists(st, g.subjectId.value)
    ensures v.student.Some? ==> exists u :: u in st.users && u.id == g.studentId.value
                                 && v.student.value == PersonName(u.firstName, u.lastName)
    ensures v.subject.Some? ==> exists s :: s in st.subjects && s.id == g.subjectId.value && v.subject.value == s.name
  {
    var student := if g.studentId.None? then None else FindUser(st, g.studentId.value);
    var subject := if g.subjectId.None? then None else FindSubject(st, g.subjectId.value);
    GradeView(g,
              match student case Some(u) => Some(PersonName(u.firstName, u.lastName)) case None => None,
              match subject case Some(s) => Some(s.name) case None => None)
  }

  /** `getAllGrades`: every grade row in storage order with its names joined in. */
  function GetAllGrades(st: Store): (r: Reply)
    ensures r.store == st && r.response.GradeList?
    ensures |r.response.grades| == |st.grades|
    ensures forall i :: 0 <= i < |st.grades| ==> r.response.grades[i] == Joined(st, st.grades[i])
  {
    Reply(GradeList(seq(|st.grades|, i requires 0 <= i < |st.grades| => Joined(st, st.grades[i]))), st)
  }

  /** `getGradeById`: the row with that id and its names, or the 404 "Grade not found". */
  function GetGradeById(st: Store, id: nat): (r: Reply)
    ensures r.store == st
    ensures !GradeExists(st, id) ==> r.response == GradeNotFound
    ensures GradeExists(st, id) ==>
      && r.response.GradeBody?
      && r.response.grade.grade in st.grades && r.response.grade.grade.id == id
      && r.response.grade == Joined(st, r.response.grade.grade)
  {
    match FindGrade(st, id)
    case None => Reply(GradeNotFound, st)
    case Some(g) => Reply(GradeBody(Joined(st, g)), st)
  }

  /** Whether the `Student.findByPk(studentId, {where: {role: 'student'}})`
      lookup finds a row. Whether the ORM honours that `where` is a parameter:
      with `roleFilter` the row must be a student's, without it any user's. */
  predicate StudentFound(st: Store, roleFilter: bool, studentId: Option<nat>) {
    studentId.Some? && (if roleFilter then StudentExists(st, studentId.value) else UserExists(st, studentId.value))
  }

  /** `addOrUpdateGrade`: "Student not found." when the lookup fails; if a row
      for the pair exists, that row (and only it) takes the value and the row
      count stays; otherwise exactly one row with the value is created. The
      subject is never looked up, so an unknown subject reaches the insert,
      where its foreign key refuses it. */
  function AddOrUpdateGrade(st: Store, roleFilter: bool, value: Option<int>, studentId: Option<nat>, subjectId: nat): (r: Reply)
    ensures !StudentFound(st, roleFilter, studentId) ==> r == Reply(GradeStudentNotFound, st)
    ensures StudentFound(st, roleFilter, studentId) && Linked(st, studentId.value, subjectId) ==>
      var g := FindPair(st, studentId.value, subjectId).value;
      && r.response == GradeSaved
      && ForPair(g, studentId.value, subjectId) && g in st.grades
      && |r.store.grades| == |st.grades|
      && (forall i :: 0 <= i < |st.grades| ==>
            r.store.grades[i] == if st.grades[i].id == g.id then st.grades[i].(value := value) else st.grades[i])
      && PairCount(r.store, studentId.value, subjectId) == PairCount(st, studentId.value, subjectId)
      && r.store == st.(grades := r.store.grades)
    ensures StudentFound(st, roleFilter, studentId) && !Linked(st, studentId.value, subjectId) && SubjectExists(st, subjectId) ==>
      && r.response == GradeSaved
      && r.store == st.(grades := st.grades + [Grade(st.nextGradeId, value, studentId, Some(subjectId))],
                        nextGradeId := st.nextGradeId + 1)
    ensures StudentFound(st, roleFilter, studentId) && !Linked(st, studentId.value, subjectId) && !SubjectExists(st, subjectId) ==>
      r == Reply(InternalError, st)
  {
    var student :=
      if studentId.None? then None
      else if roleFilter then FindStudent(st, studentId.value)
      else FindUser(st, studentId.value);
    if student.None? then Reply(GradeStudentNotFound, st)
    else
      match FindPair(st, studentId.value, subjectId)
      case Some(g) =>
        var hit := (h: Grade) => h.id == g.id;
        var assign := (h: Grade) => h.(value := value);
        CountUpdateWhere(st.grades, hit, assign, (h: Grade) => ForPair(h, studentId.value, subjectId));
        Reply(GradeSaved, st.(grades := UpdateWhere(st.grades, hit, assign)))
      case None =>
        match InsertGrade(st, value, studentId, Some(subjectId))
        case Some(st') => Reply(GradeSaved, st')
        case None => Reply(InternalError, st)
  }

  /** `updateGrade`: "Grade not found" when no row has the id; otherwise the
      rows with that id take the value and every other row stays. */
  function UpdateGrade(st: Store, id: nat, value: Option<int>): (r: Reply)
    ensures !GradeExists(st, id) ==> r == Reply(GradeNotFound, st)
    ensures GradeExists(st, id) ==>
      && r.response == GradeUpdated
      && |r.store.grades| == |st.grades|
      && (forall i :: 0 <= i < |st.grades| ==>
            r.store.grades[i] == if st.grades[i].id == id then st.grades[i].(value := value) else st.grades[i])
      && r.store == st.(grades := r.store.grades)
  {
    var hit := (g: Grade) => g.id == id;
    if Count(st.grades, hit) > 0 then
      Reply(GradeUpdated, st.(grades := UpdateWhere(st.grades, hit, (g: Grade) => g.(value := value))))
    else Reply(GradeNotFound, st)
  }

  /** Two grade rows with the same composite primary key (id, studentId, subjectId). */
  predicate SameKey(g: Grade, h: Grade) {
    g.id == h.id && g.studentId == h.studentId && g.subjectId == h.subjectId
  }

  /** `deleteGrade`: the 404 "Grade not found" when no row has the id;
      otherwise the value is cleared to null while the row, its id and its
      keys stay. */
  function DeleteGrade(st: Store, id: nat): (r: Reply)
    ensures !GradeExists(st, id) ==> r == Reply(GradeNotFound, st)
    ensures GradeExists(st, id) ==>
      && r.response == GradeCleared
      && |r.store.grades| == |st.grades|
      && (forall i :: 0 <= i < |st.grades| ==>
            && r.store.grades[i].id == st.grades[i].id
            && r.store.grades[i].studentId == st.grades[i].studentId
            && r.store.grades[i].subjectId == st.grades[i].subjectId)
      && (exists i :: 0 <= i < |st.grades| && st.grades[i].id == id && r.store.grades[i].value.None?)
      && r.store == st.(grades := r.store.grades)
    ensures GradeExists(st, id) && PrimaryKeys(st) ==>
      forall i :: 0 <= i < |st.grades| ==>
        r.store.grades[i] == if st.grades[i].id == id then st.grades[i].(value := None) else st.grades[i]
  {
    match FindGrade(st, id)
    case None => Reply(GradeNotFound, st)
    case Some(found) =>
      var rows := UpdateWhere(st.grades, (g: Grade) => SameKey(g, found), (g: Grade) => g.(value := None));
      assert exists i :: 0 <= i < |st.grades| && st.grades[i] == found;
      Reply(GradeCleared, st.(grades := rows))
  }

  // ---------------------------------------------------------------------------
  // Properties across calls
  // ---------------------------------------------------------------------------

  /** In a well-formed store every non-null reference joins to a name, so a
      listing shows "unknown" only for a reference that was set to null. */
  lemma JoinsResolve(st: Store)
    requires Valid(st)
    ensures forall i :: 0 <= i < |st.grades| ==>
      && (GetAllGrades(st).response.grades[i].student.Some? <==> st.grades[i].studentId.Some?)
      && (GetAllGrades(st).response.grades[i].subject.Some? <==> st.grades[i].subjectId.Some?)
  {
    assert forall i :: 0 <= i < |st.grades| ==> st.grades[i] in st.grades;
  }

  /** Grading a pair that has no row with `v1` and then with `v2` leaves
      exactly one row for the pair, holding `v2`: the second call updates the
      row the first one created instead of creating another. */
  lemma UpsertTwice(st: Store, roleFilter: bool, v1: Option<int>, v2: Option<int>, studentId: nat, subjectId: nat)
    requires Valid(st)
    requires StudentFound(st, roleFilter, Some(studentId)) && SubjectExists(st, subjectId)
    requires !Linked(st, studentId, subjectId)
    ensures var st2 := AddOrUpdateGrade(AddOrUpdateGrade(st, roleFilter, v1, Some(studentId), subjectId).store,
                                        roleFilter, v2, Some(studentId), subjectId);
      && st2.response == GradeSaved
      && PairCount(st2.store, studentId, subjectId) == 1
      && (forall g :: g in st2.store.grades && ForPair(g, studentId, subjectId) ==> g.value == v2)
  {
    var created := UpsertCreatesOnlyRow(st, roleFilter, v1, studentId, subjectId);
    var st1 := AddOrUpdateGrade(st, roleFilter, v1, Some(studentId), subjectId).store;
    UpsertRewritesOnlyRow(st1, roleFilter, v2, studentId, subjectId, created);
  }

  /** The first upsert of an unlinked pair creates the pair's only row. */
  lemma {:induction false} UpsertCreatesOnlyRow(st: Store, roleFilter: bool, value: Option<int>, studentId: nat, subjectId: nat)
    returns (created: Grade)
    requires Valid(st)
    requires StudentFound(st, roleFilter, Some(studentId)) && SubjectExists(st, subjectId)
    requires !Linked(st, studentId, subjectId)
    ensures var st1 := AddOrUpdateGrade(st, roleFilter, value, Some(studentId), subjectId).store;
      && StudentFound(st1, roleFilter, Some(studentId))
      && created in st1.grades && ForPair(created, studentId, subjectId)
      && PairCount(st1, studentId, subjectId) == 1
      && (forall g :: g in st1.grades && ForPair(g, studentId, subjectId) ==> g == created)
  {
    var pair := (g: Grade) => ForPair(g, studentId, subjectId);
    created := Grade(st.nextGradeId, value, Some(studentId), Some(subjectId));
    var st1 := AddOrUpdateGrade(st, roleFilter, value, Some(studentId), subjectId).store;
    assert st1.grades == st.grades + [created];
    CountAppend(st.grades, created, pair);
    forall g | g in st1.grades && ForPair(g, studentId, subjectId)
      ensures g == created
    {
      assert g in st.grades || g == created;
    }
  }

  /** An upsert of a pair whose only row is `row` rewrites that row's value
      and creates nothing. */
  lemma UpsertRewritesOnlyRow(st: Store, roleFilter: bool, value: Option<int>, studentId: nat, subjectId: nat, row: Grade)
    requires StudentFound(st, roleFilter, Some(studentId))
    requires row in st.grades && ForPair(row, studentId, subjectId)
    requires forall g :: g in st.grades && ForPair(g, studentId, subjectId) ==> g == row
    ensures var r := AddOrUpdateGrade(st, roleFilter, value, Some(studentId), subjectId);
      && r.response == GradeSaved
      && PairCount(r.store, studentId, subjectId) == PairCount(st, studentId, subjectId)
      && (forall g :: g in r.store.grades && ForPair(g, studentId, subjectId) ==> g.value == value)
  {
    var r := AddOrUpdateGrade(st, roleFilter, value, Some(studentId), subjectId);
    assert Linked(st, studentId, subjectId);
    var found := FindPair(st, studentId, subjectId).value;
    assert found == row;
    forall h | h in r.store.grades && ForPair(h, studentId, subjectId)
      ensures h.value == value
    {
      var i :| 0 <= i < |r.store.grades| && r.store.grades[i] == h;
      var before := st.grades[i];
      assert before in st.grades;
    }
  }

  /** Clearing a grade and removing the subject from the student are
      different: after the soft clear the pair is still linked (the row stays,
      with a null value), after the removal it is not. */
  lemma ClearIsNotRemove(st: Store, g: Grade)
    requires g in st.grades && g.studentId.Some? && g.subjectId.Some?
    ensures var cleared := DeleteGrade(st, g.id).store;
      && Linked(cleared, g.studentId.value, g.subjectId.value)
      && |cleared.grades| == |st.grades|
    ensures var removed := Subjects.RemoveSubjectFromStudent(st, g.studentId.value, g.subjectId.value).store;
      && !Linked(removed, g.studentId.value, g.subjectId.value)
      && |removed.grades| < |st.grades|
  {
    var cleared := DeleteGrade(st, g.id).store;
    var i :| 0 <= i < |st.grades| && st.grades[i] == g;
    assert cleared.grades[i] in cleared.grades;
    assert Linked(st, g.studentId.value, g.subjectId.value);
  }

  // ---------------------------------------------------------------------------
  // The grade handlers keep a well-formed store well formed
  // ---------------------------------------------------------------------------

  /** Setting the value of the rows with one id keeps every invariant: ids
      and references stay at their positions, and equal rows stay equal. */
  lemma RevaluedKeepsValid(st: Store, st': Store, id: nat, value: Option<int>)
    requires Valid(st)
    requires st' == st.(grades := st'.grades) && |st'.grades| == |st.grades|
    requires forall i :: 0 <= i < |st.grades| ==>
      st'.grades[i] == if st.grades[i].id == id then st.grades[i].(value := value) else st.grades[i]
    ensures Valid(st')
  {
    RemappedGradeKeys(st, st', (g: Grade) => if g.id == id then g.(value := value) else g);
    forall g | g in st'.grades
      ensures g.studentId.Some? ==> UserExists(st', g.studentId.value)
      ensures g.subjectId.Some? ==> SubjectExists(st', g.subjectId.value)
    {
      var i :| 0 <= i < |st'.grades| && st'.grades[i] == g;
      assert st.grades[i] in st.grades;
    }
  }

  lemma AddOrUpdateGradeKeepsValid(st: Store, roleFilter: bool, value: Option<int>, studentId: Option<nat>, subjectId: nat)
    requires Valid(st)
    ensures Valid(AddOrUpdateGrade(st, roleFilter, value, studentId, subjectId).store)
  {
    var r := AddOrUpdateGrade(st, roleFilter, value, studentId, subjectId);
    if StudentFound(st, roleFilter, studentId) {
      if Linked(st, studentId.value, subjectId) {
        RevaluedKeepsValid(st, r.store, FindPair(st, studentId.value, subjectId).value.id, value);
      } else if SubjectExists(st, subjectId) {
        InsertedGradeIdIsFresh(st, value, studentId, Some(subjectId));
      }
    }
  }

  lemma UpdateGradeKeepsValid(st: Store, id: nat, value: Option<int>)
    requires Valid(st)
    ensures Valid(UpdateGrade(st, id, value).store)
  {
    if GradeExists(st, id) {
      RevaluedKeepsValid(st, UpdateGrade(st, id, value).store, id, value);
    }
  }

  lemma DeleteGradeKeepsValid(st: Store, id: nat)
    requires Valid(st)
    ensures Valid(DeleteGrade(st, id).store)
  {
    if GradeExists(st, id) {
      RevaluedKeepsValid(st, DeleteGrade(st, id).store, id, None);
    }
  }
}

=== FILE: http.dfy ===
/** What a handler sends back. Each fixed message of the JavaScript handlers is one
    constructor (its text is given by `Text`); bodies that carry data are
    constructors with the data, in the shape the ORM query produces. */
module Http {
  import opened Wrappers
  import opened Schema
  import opened Credentials

  /** A student of a subject listing: the selected user attributes and the
      grade value of the linking row. */
  datatype Enrolment = Enrolment(id: nat, firstName: string, lastName: string, value: Option<int>)

  /** A subject with its `Students` (`getAllSubjects`). */
  datatype SubjectView = SubjectView(subject: Subject, students: seq<Enrolment>)

  /** A subject with the caller's grade rows for it (`studentSubject`). */
  datatype OwnSubject = OwnSubject(subject: Subject, grades: seq<Grade>)

  /** A user with its `Subjects` (`getAllStudents`, `getStudentById`). */
  datatype StudentView = StudentView(user: User, subjects: seq<Subject>)

  datatype PersonName = PersonName(firstName: string, lastName: string)

  /** A grade row joined with its student's name and its subject's name;
      a null or dangling reference joins to nothing. */
  datatype GradeView = GradeView(grade: Grade, student: Option<PersonName>, subject: Option<string>)

  datatype Response =
    // middleware
    | EmailAlreadyUsed
    | AccessDenied
    | TokenRejected
    | MissingRole
    // subjects
    | SubjectList(subjects: seq<SubjectView>)
    | SubjectBody(subject: Subject)
    | SubjectNotFound
    | StudentSubjects(own: seq<OwnSubject>)
    | SubjectNameTaken
    | MissingIds
    | StudentOrSubjectNotFound
    | SubjectAssigned
    | SubjectUpdated
    | SubjectDeleted
    | NotAssigned
    | SubjectRemoved
    // grades
    | GradeList(grades: seq<GradeView>)
    | GradeBody(grade: GradeView)
    | GradeNotFound
    | GradeStudentNotFound
    | GradeSaved
    | GradeUpdated
    | GradeCleared
    // students
    | StudentList(students: seq<StudentView>)
    | StudentBody(student: StudentView)
    | StudentNotFound
    | ProfileUpdated
    | StudentDeleted
    // users
    | Session(user: User, token: Token)
    | AuthenticationFailed
    | ProfileBody(user: User)
    | ProfileMissing
    | UserNotFound
    // a rejected write (a constraint of the database)
    | InternalError
  {
    /** The message text of a fixed response; data-carrying bodies have none. */
    function Text(): string {
      match this
      case EmailAlreadyUsed => "Email is already used."
      case AccessDenied => "Access denied"
      case TokenRejected => "Error!"
      case MissingRole => "You don't have the required role."
      case SubjectNotFound => "Subject not found"
      case SubjectNameTaken => "Subject with this name already exist."
      case MissingIds => "Missing studentId or subjectId"
      case StudentOrSubjectNotFound => "Student or Subject not found"
      case SubjectAssigned => "Subject assigned to student successfully"
      case SubjectUpdated => "Subject updated successfully"
      case SubjectDeleted => "Subject deleted successfully"
      case NotAssigned => "Grade not found or subject not assigned to student."
      case SubjectRemoved => "Subject removed from student successfully."
      case GradeNotFound => "Grade not found"
      case GradeStudentNotFound => "Student not found."
      case GradeSaved => "Grade added/updated successfully."
      case GradeUpdated => "Grade updated successfully"
      case GradeCleared => "Grade value set to null successfully."
      case StudentNotFound => "Student not found"
      case ProfileUpdated => "Profile updated successfully"
      case StudentDeleted => "Student deleted successfully"
      case AuthenticationFailed => "Authentication failed"
      case ProfileMissing => "User not found."
      case UserNotFound => "User not found"
      case InternalError => "Internal Server Error"
      case _ => ""
    }
  }

  /** A handler's outcome: the response sent and the store after the request. */
  datatype Reply = Reply(response: Response, store: Store)
}

=== FILE: routes.dfy ===
/** The routing table: the four routers, mounted under `/api/user`,
    `/api/student`, `/api/subject` and `/api/grade`, each endpoint with its
    verb, its path and the middleware chain in front of its handler, and the
    dispatch of one request through that chain to the handler. */
module Routes {
  import opened Wrappers
  import opened Schema
  import opened Credentials
  import opened Http
  import Auth
  import Users
  import Students
  import Subjects
  import Grades

  /** A middleware in front of a handler. `SaveUser` carries the email of
      the request body it checks. */
  datatype Guard = SaveUser(email: string) | Authenticate | Authorize(role: Role)

  datatype Verb = Get | Post | Put | Delete

  /** One request to one endpoint, with the path parameters and body fields
      its handler reads. */
  datatype Call =
    // the user router
    | Register(reg: Users.Registration)
    | Login(email: string, password: string)
    | GetProfile
    | UpdateProfile(patch: Users.ProfilePatch)
    // the student router
    | GetAllStudents
    | GetStudentById(id: nat)
    | AddStudent(reg: Users.Registration)
    | UpdateStudent(id: nat, patch: Users.ProfilePatch)
    | DeleteStudent(id: nat)
    // the subject router
    | GetAllSubjects
    | StudentSubject
    | GetSubjectById(id: nat)
    | AddSubjects(name: string)
    | AssignSubject(id: nat, target: Option<nat>)
    | UpdateSubjects(id: nat, name: string)
    | DeleteSubjects(id: nat)
    | RemoveSubjectFromStudent(student: nat, subject: nat)
    // the grade router
    | GetAllGrades
    | GetGradeById(id: nat)
    | AddOrUpdateGrade(value: Option<int>, studentId: Option<nat>, subjectId: nat)
    | UpdateGrade(id: nat, value: Option<int>)
    | DeleteGrade(id: nat)

  /** A request: its `Authorization` header, if any, and the call. */
  datatype Request = Request(authorization: Option<string>, call: Call)

  /** What the server is configured with: the hashing and token functions,
      and whether `findByPk` honours a `where` option. */
  datatype Config = Config(crypto: Crypto, roleFilter: bool)

  /** The prefix the call's router is mounted under. */
  function Mount(c: Call): string {
    if c.Register? || c.Login? || c.GetProfile? || c.UpdateProfile? then "/api/user"
    else if c.GetAllStudents? || c.GetStudentById? || c.AddStudent? || c.UpdateStudent? || c.DeleteStudent? then "/api/student"
    else if c.GetAllGrades? || c.GetGradeById? || c.AddOrUpdateGrade? || c.UpdateGrade? || c.DeleteGrade? then "/api/grade"
    else "/api/subject"
  }

  /** The verb and the path (within the router) the call is registered with. */
  function Route(c: Call): (Verb, string) {
    match c
    case Register(_) => (Post, "/register")
    case Login(_, _) => (Post, "/login")
    case GetProfile => (Get, "/getProfile")
    case UpdateProfile(_) => (Put, "/updateProfile")
    case GetAllStudents => (Get, "/")
    case GetStudentById(_) => (Get, "/getStudentById/:id")
    case AddStudent(_) => (Post, "/addStudent")
    case UpdateStudent(_, _) => (Put, "/updateStudent/:id")
    case DeleteStudent(_) => (Delete, "/deleteStudent/:id")
    case GetAllSubjects => (Get, "/")
    case StudentSubject => (Get, "/studentSubject")
    case GetSubjectById(_) => (Get, "/getSubjectById/:id")
    case AddSubjects(_) => (Post, "/addSubjects")
    case AssignSubject(_, _) => (Post, "/assignSubject/:id")
    case UpdateSubjects(_, _) => (Put, "/updateSubjects/:id")
    case DeleteSubjects(_) => (Delete, "/deleteSubjects/:id")
    case RemoveSubjectFromStudent(_, _) => (Delete, "/removeSubjectFromStudent/:studentId/:subjectId")
    case GetAllGrades => (Get, "/")
    case GetGradeById(_) => (Get, "/getById/:id")
    case AddOrUpdateGrade(_, _, _) => (Post, "/addOrUpdateGrade")
    case UpdateGrade(_, _) => (Put, "/updateGrade/:id")
    case DeleteGrade(_) => (Delete, "/deleteGrade/:id")
  }

  /** The middleware chain of the call's route. Role checks only ever come
      after authentication, and a route has at most one role check. */
  function Guards(c: Call): (gs: seq<Guard>)
    ensures forall i :: 0 <= i < |gs| && gs[i].Authorize? ==> 0 < i && gs[i - 1] == Authenticate
    ensures forall i, j :: 0 <= i < j < |gs| && gs[i].Authorize? ==> !gs[j].Authorize?
    ensures c.Register? ==> gs == [SaveUser(c.reg.email)]
    ensures forall i :: 0 <= i < |gs| && gs[i].SaveUser? ==> c.Register?
    ensures c.Login? <==> gs == []
  {
    match c
    case Register(reg) => [SaveUser(reg.email)]
    case Login(_, _) => []
    case GetProfile => [Authenticate]
    case UpdateProfile(_) => [Authenticate]
    case StudentSubject => [Authenticate]
    case _ => [Authenticate, Authorize(Professor)]
  }

  /** How far a request gets through its middleware chain: to the handler,
      with the identity authentication attached (if any), or stopped with a
      response. */
  datatype Passage = Pass(caller: Option<Identity>) | Stop(response: Response)

  /** Runs the chain in order; the first guard that answers stops the
      request. A role check with no identity attached reads a field of
      `undefined`, which the application's error handler turns into
      "Internal Server Error". */
  function RunGuards(cfg: Config, st: Store, header: Option<string>, gs: seq<Guard>, caller: Option<Identity>): (p: Passage)
    ensures p.Pass? && caller.Some? ==> p.caller.Some?
    ensures p.Pass? && Authenticate in gs ==> p.caller.Some?
    ensures p.Pass? && gs != [] && gs[|gs| - 1].Authorize? ==>
      p.caller.Some? && p.caller.value.role == gs[|gs| - 1].role
    decreases |gs|
  {
    if gs == [] then Pass(caller)
    else
      var next :=
        match gs[0]
        case SaveUser(email) =>
          (match Auth.SaveUser(st, email) case Halt(r) => Stop(r) case Next => Pass(caller))
        case Authenticate =>
          (match Auth.AuthenticateToken(cfg.crypto, header)
           case Refused(r) => Stop(r)
           case Authenticated(identity) => Pass(Some(identity)))
        case Authorize(role) =>
          if caller.None? then Stop(InternalError)
          else (match Auth.AuthorizeRole(caller.value, role) case Halt(r) => Stop(r) case Next => Pass(caller));
      match next
      case Stop(r) => Stop(r)
      case Pass(who) =>
        var p := RunGuards(cfg, st, header, gs[1..], who);
        assert forall g :: g in gs ==> g == gs[0] || g in gs[1..];
        assert |gs| > 1 ==> gs[1..][|gs[1..]| - 1] == gs[|gs| - 1];
        p
  }

  /** Calls the handler of the call. A handler that reads the caller's
      identity with none attached fails like the role check above. */
  function Dispatch(cfg: Config, st: Store, c: Call, caller: Option<Identity>): Reply {
    var crypto := cfg.crypto;
    match c
    case Register(reg) => Users.Register(crypto, st, reg)
    case Login(email, password) => Users.Login(crypto, st, email, password)
    case GetProfile => if caller.None? then Reply(InternalError, st) else Users.GetProfile(st, caller.value)
    case UpdateProfile(patch) => if caller.None? then Reply(InternalError, st) else Users.UpdateProfile(crypto, st, caller.value, patch)
    case GetAllStudents => Students.GetAllStudents(st)
    case GetStudentById(id) => Students.GetStudentById(st, id)
    case AddStudent(reg) => Students.AddStudent(crypto, st, reg)
    case UpdateStudent(id, patch) => Students.UpdateStudent(crypto, st, id, patch)
    case DeleteStudent(id) => Students.DeleteStudent(st, id)
    case GetAllSubjects => Subjects.GetAllSubjects(st)
    case StudentSubject => if caller.None? then Reply(InternalError, st) else Subjects.StudentSubject(st, caller.value)
    case GetSubjectById(id) => Subjects.GetSubjectById(st, id)
    case AddSubjects(name) => Subjects.AddSubjects(st, name)
    case AssignSubject(id, target) => Subjects.AssignSubjectToStudent(st, Some(id), target)
    case UpdateSubjects(id, name) => Subjects.UpdateSubjects(st, id, name)
    case DeleteSubjects(id) => Subjects.DeleteSubjects(st, id)
    case RemoveSubjectFromStudent(student, subject) => Subjects.RemoveSubjectFromStudent(st, student, subject)
    case GetAllGrades => Grades.GetAllGrades(st)
    case GetGradeById(id) => Grades.GetGradeById(st, id)
    case AddOrUpdateGrade(value, studentId, subjectId) => Grades.AddOrUpdateGrade(st, cfg.roleFilter, value, studentId, subjectId)
    case UpdateGrade(id, value) => Grades.UpdateGrade(st, id, value)
    case DeleteGrade(id) => Grades.DeleteGrade(st, id)
  }

  /** Handles one request: its middleware chain, then its handler. A request
      a guard stops changes nothing. */
  function Handle(cfg: Config, st: Store, req: Request): (r: Reply)
    ensures RunGuards(cfg, st, req.authorization, Guards(req.call), None).Stop? ==>
      r == Reply(RunGuards(cfg, st, req.authorization, Guards(req.call), None).response, st)
  {
    match RunGuards(cfg, st, req.authorization, Guards(req.call), None)
    case Stop(response) => Reply(response, st)
    case Pass(caller) => Dispatch(cfg, st, req.call, caller)
  }

  // ---------------------------------------------------------------------------
  // Access control
  // ---------------------------------------------------------------------------

  /** Whether an authenticated user with that role gets past the call's chain. */
  predicate Admits(c: Call, role: Role) {
    forall g :: g in Guards(c) && g.Authorize? ==> g.role == role
  }

  /** A student's token opens only the user router's own endpoints and the
      list of the student's own subjects; every student, subject and grade
      administration endpoint is the professor's. */
  lemma StudentEndpoints(c: Call)
    ensures Admits(c, Student) <==> c.Register? || c.Login? || c.GetProfile? || c.UpdateProfile? || c.StudentSubject?
    ensures Admits(c, Professor)
  {
    if !(c.Register? || c.Login? || c.GetProfile? || c.UpdateProfile? || c.StudentSubject?) {
      assert Guards(c)[1] == Authorize(Professor);
    }
  }

  /** On every route behind authentication, a request whose header yields no
      token is answered "Access denied" and changes nothing. */
  lemma NoTokenNoAccess(cfg: Config, st: Store, req: Request)
    requires Authenticate in Guards(req.call)
    requires Auth.HeaderToken(req.authorization).None?
    ensures Handle(cfg, st, req) == Reply(AccessDenied, st)
  {
    assert Guards(req.call)[0] == Authenticate;
  }

  /** On every route behind authentication, a token that does not verify is
      answered "Error!" and changes nothing. */
  lemma BadTokenRejected(cfg: Config, st: Store, req: Request)
    requires Authenticate in Guards(req.call)
    requires Auth.HeaderToken(req.authorization).Some?
    requires cfg.crypto.verify(Auth.HeaderToken(req.authorization).value).None?
    ensures Handle(cfg, st, req) == Reply(TokenRejected, st)
  {
    assert Guards(req.call)[0] == Authenticate;
  }

  /** A verified student token on a professor's route is answered with the
      role message and changes nothing. */
  lemma StudentTokenStopped(cfg: Config, st: Store, req: Request, who: Identity)
    requires Auth.AuthenticateToken(cfg.crypto, req.authorization) == Auth.Authenticated(who)
    requires who.role == Student
    requires !Admits(req.call, Student)
    ensures Handle(cfg, st, req) == Reply(MissingRole, st)
  {
    StudentEndpoints(req.call);
    var gs := Guards(req.call);
    var h := req.authorization;
    assert gs == [Authenticate, Authorize(Professor)];
    assert gs[1..] == [Authorize(Professor)];
    assert gs[1..][1..] == [];
    assert RunGuards(cfg, st, h, gs[1..], Some(who)) == Stop(MissingRole);
    assert RunGuards(cfg, st, h, gs, None) == Stop(MissingRole);
  }

  /** Whatever the token, a request that reaches a handler of a professor's
      route was made with a verified professor token. */
  lemma OnlyProfessorsAdminister(cfg: Config, st: Store, req: Request)
    requires !Admits(req.call, Student)
    requires RunGuards(cfg, st, req.authorization, Guards(req.call), None).Pass?
    ensures Auth.AuthenticateToken(cfg.crypto, req.authorization).Authenticated?
    ensures Auth.AuthenticateToken(cfg.crypto, req.authorization).identity.role == Professor
  {
    StudentEndpoints(req.call);
    var gs := Guards(req.call);
    assert gs == [Authenticate, Authorize(Professor)];
    assert gs[1..] == [Authorize(Professor)];
    assert Authorize(Professor) in gs;
  }

  /** The session `login` hands out works as a bearer token: the profile
      request made with it answers with that very user. */
  lemma LoginThenProfile(cfg: Config, st: Store, email: string, password: string)
    requires Sound(cfg.crypto) && Valid(st)
    requires Users.Login(cfg.crypto, st, email, password).response.Session?
    ensures var s := Users.Login(cfg.crypto, st, email, password).response;
      Handle(cfg, st, Request(Some("Bearer " + s.token), GetProfile)) == Reply(ProfileBody(s.user), st)
  {
    var s := Users.Login(cfg.crypto, st, email, password).response;
    var who := Identity(s.user.id, s.user.role);
    var h := Some("Bearer " + s.token);
    Auth.IssuedTokenAuthenticates(cfg.crypto, s.user);
    assert [Authenticate][1..] == [];
    assert RunGuards(cfg, st, h, [Authenticate], None) == Pass(Some(who));
    var found := FindUser(st, s.user.id);
    assert found == Some(s.user);
    assert Dispatch(cfg, st, GetProfile, Some(who)) == Reply(ProfileBody(s.user), st);
  }

  // ---------------------------------------------------------------------------
  // The store invariant across requests
  // ---------------------------------------------------------------------------

  /** Every GET route and `login` only read. */
  lemma ReadsChangeNothing(cfg: Config, st: Store, req: Request)
    requires Route(req.call).0 == Get || req.call.Login?
    ensures Handle(cfg, st, req).store == st
  {
  }

  /** Whatever handler a request reaches, a well-formed store stays well formed. */
  lemma DispatchKeepsValid(cfg: Config, st: Store, c: Call, caller: Option<Identity>)
    requires Valid(st)
    ensures Valid(Dispatch(cfg, st, c, caller).store)
  {
    if c.Register? || c.UpdateProfile? || c.AddStudent? || c.UpdateStudent? || c.DeleteStudent? {
      AccountHandlersKeepValid(cfg, st, c, caller);
    } else if c.AddSubjects? || c.AssignSubject? || c.UpdateSubjects? || c.DeleteSubjects? || c.RemoveSubjectFromStudent? {
      SubjectHandlersKeepValid(cfg, st, c, caller);
    } else if c.AddOrUpdateGrade? || c.UpdateGrade? || c.DeleteGrade? {
      GradeHandlersKeepValid(cfg, st, c, caller);
    }
  }

  /** The handlers that write the users table keep the store well formed. */
  lemma AccountHandlersKeepValid(cfg: Config, st: Store, c: Call, caller: Option<Identity>)
    requires Valid(st)
    requires c.Register? || c.UpdateProfile? || c.AddStudent? || c.UpdateStudent? || c.DeleteStudent?
    ensures Valid(Dispatch(cfg, st, c, caller).store)
  {
    var crypto := cfg.crypto;
    match c
    case Register(reg) =>
      assert Dispatch(cfg, st, c, caller) == Users.Register(crypto, st, reg);
      Users.RegisterKeepsValid(crypto, st, reg);
    case UpdateProfile(patch) =>
      if caller.Some? {
        assert Dispatch(cfg, st, c, caller) == Users.UpdateProfile(crypto, st, caller.value, patch);
        Users.UpdateProfileKeepsValid(crypto, st, caller.value, patch);
      }
    case AddStudent(reg) =>
      assert Dispatch(cfg, st, c, caller) == Students.AddStudent(crypto, st, reg);
      Students.AddStudentKeepsValid(crypto, st, reg);
    case UpdateStudent(id, patch) =>
      assert Dispatch(cfg, st, c, caller) == Students.UpdateStudent(crypto, st, id, patch);
      Students.UpdateStudentKeepsValid(crypto, st, id, patch);
    case DeleteStudent(id) =>
      assert Dispatch(cfg, st, c, caller) == Students.DeleteStudent(st, id);
      Students.DeleteStudentKeepsValid(st, id);
  }

  /** The handlers that write subjects and assignments keep the store well formed. */
  lemma SubjectHandlersKeepValid(cfg: Config, st: Store, c: Call, caller: Option<Identity>)
    requires Valid(st)
    requires c.AddSubjects? || c.AssignSubject? || c.UpdateSubjects? || c.DeleteSubjects? || c.RemoveSubjectFromStudent?
    ensures Valid(Dispatch(cfg, st, c, caller).store)
  {
    match c
    case AddSubjects(name) =>
      assert Dispatch(cfg, st, c, caller) == Subjects.AddSubjects(st, name);
      Subjects.AddSubjectsKeepsValid(st, name);
    case AssignSubject(id, target) =>
      assert Dispatch(cfg, st, c, caller) == Subjects.AssignSubjectToStudent(st, Some(id), target);
      Subjects.AssignSubjectKeepsValid(st, Some(id), target);
    case UpdateSubjects(id, name) =>
      assert Dispatch(cfg, st, c, caller) == Subjects.UpdateSubjects(st, id, name);
      Subjects.UpdateSubjectsKeepsValid(st, id, name);
    case DeleteSubjects(id) =>
      assert Dispatch(cfg, st, c, caller) == Subjects.DeleteSubjects(st, id);
      Subjects.DeleteSubjectsKeepsValid(st, id);
    case RemoveSubjectFromStudent(student, subject) =>
      assert Dispatch(cfg, st, c, caller) == Subjects.RemoveSubjectFromStudent(st, student, subject);
      Subjects.RemoveSubjectKeepsValid(st, student, subject);
  }

  /** The handlers that write grades keep the store well formed. */
  lemma GradeHandlersKeepValid(cfg: Config, st: Store, c: Call, caller: Option<Identity>)
    requires Valid(st)
    requires c.AddOrUpdateGrade? || c.UpdateGrade? || c.DeleteGrade?
    ensures Valid(Dispatch(cfg, st, c, caller).store)
  {
    match c
    case AddOrUpdateGrade(value, studentId, subjectId) =>
      assert Dispatch(cfg, st, c, caller) == Grades.AddOrUpdateGrade(st, cfg.roleFilter, value, studentId, subjectId);
      Grades.AddOrUpdateGradeKeepsValid(st, cfg.roleFilter, value, studentId, subjectId);
    case UpdateGrade(id, value) =>
      assert Dispatch(cfg, st, c, caller) == Grades.UpdateGrade(st, id, value);
      Grades.UpdateGradeKeepsValid(st, id, value);
    case DeleteGrade(id) =>
      assert Dispatch(cfg, st, c, caller) == Grades.DeleteGrade(st, id);
      Grades.DeleteGradeKeepsValid(st, id);
  }

  /** Whatever request arrives, a well-formed store stays well formed. */
  lemma HandleKeepsValid(cfg: Config, st: Store, req: Request)
    requires Valid(st)
    ensures Valid(Handle(cfg, st, req).store)
  {
    var p := RunGuards(cfg, st, req.authorization, Guards(req.call), None);
    if p.Pass? {
      DispatchKeepsValid(cfg, st, req.call, p.caller);
    }
  }
}

=== FILE: schema.dfy ===
/** The persistence schema of the catalog: the users, subjects and grades
    tables, the many-to-many association between users and subjects that the
    grades table carries, and the referential actions of that association.
    Ids are the auto-incremented integer keys; a store keeps the next id of
    each table, so a fresh row never reuses an id. */
module Schema {
  import opened Wrappers
  import opened Tables

  /** A stored bcrypt digest; the plaintext password is never a column. */
  type Digest = string

  datatype Role = Professor | Student

  datatype User = User(id: nat, firstName: string, lastName: string, email: string, password: Digest, role: Role)

  datatype Subject = Subject(id: nat, name: string)

  /** A grade row: a nullable integer value and a nullable reference to one
      user (the student) and to one subject. */
  datatype Grade = Grade(id: nat, value: Option<int>, studentId: Option<nat>, subjectId: Option<nat>)

  datatype Store = Store(
    users: seq<User>,
    subjects: seq<Subject>,
    grades: seq<Grade>,
    nextUserId: nat,
    nextSubjectId: nat,
    nextGradeId: nat)

  /** The result of a bulk write: how many rows it matched, and the new store. */
  datatype Affected = Affected(rows: nat, store: Store)

  // ---------------------------------------------------------------------------
  // Invariants of a well-formed store
  // ---------------------------------------------------------------------------

  predicate UserExists(st: Store, id: nat) {
    exists u :: u in st.users && u.id == id
  }

  /** A user with this id exists and has the student role. */
  predicate StudentExists(st: Store, id: nat) {
    exists u :: u in st.users && u.id == id && u.role == Student
  }

  predicate SubjectExists(st: Store, id: nat) {
    exists s :: s in st.subjects && s.id == id
  }

  predicate GradeExists(st: Store, id: nat) {
    exists g :: g in st.grades && g.id == id
  }

  /** Some grade row links user `uid` to subject `sid`. */
  predicate Linked(st: Store, uid: nat, sid: nat) {
    exists g :: g in st.grades && g.studentId == Some(uid) && g.subjectId == Some(sid)
  }

  /** Every stored id is below its table's counter. */
  ghost predicate FreshCounters(st: Store) {
    && (forall u :: u in st.users ==> u.id < st.nextUserId)
    && (forall s :: s in st.subjects ==> s.id < st.nextSubjectId)
    && (forall g :: g in st.grades ==> g.id < st.nextGradeId)
  }

  /** The id is a primary key of each table: two rows with one id are one row. */
  ghost predicate PrimaryKeys(st: Store) {
    && (forall u, v :: u in st.users && v in st.users && u.id == v.id ==> u == v)
    && (forall s, t :: s in st.subjects && t in st.subjects && s.id == t.id ==> s == t)
    && (forall g, h :: g in st.grades && h in st.grades && g.id == h.id ==> g == h)
  }

  /** No two users share an email, and no two subjects share a name. */
  ghost predicate UniqueNames(st: Store) {
    && (forall u, v :: u in st.users && v in st.users && u.email == v.email ==> u == v)
    && (forall s, t :: s in st.subjects && t in st.subjects && s.name == t.name ==> s == t)
  }

  /** Every non-null reference of a grade row names an existing row. */
  ghost predicate ReferencesIntact(st: Store) {
    && (forall g :: g in st.grades && g.studentId.Some? ==> UserExists(st, g.studentId.value))
    && (forall g :: g in st.grades && g.subjectId.Some? ==> SubjectExists(st, g.subjectId.value))
  }

  ghost predicate Valid(st: Store) {
    FreshCounters(st) && PrimaryKeys(st) && UniqueNames(st) && ReferencesIntact(st)
  }

  // ---------------------------------------------------------------------------
  // Lookups
  // ---------------------------------------------------------------------------

  /** `User.findOne({where: {id}})`. */
  function FindUser(st: Store, id: nat): (r: Option<User>)
    ensures r.Some? ==> r.value in st.users && r.value.id == id
    ensures r.None? <==> !UserExists(st, id)
  {
    FindOne(st.users, (u: User) => u.id == id)
  }

  /** `User.findOne({where: {id, role: 'student'}})`. */
  function FindStudent(st: Store, id: nat): (r: Option<User>)
    ensures r.Some? ==> r.value in st.users && r.value.id == id && r.value.role == Student
    ensures r.None? <==> !StudentExists(st, id)
  {
    FindOne(st.users, (u: User) => u.id == id && u.role == Student)
  }

  /** `User.findOne({where: {email}})`. */
  function FindUserByEmail(st: Store, email: string): (r: Option<User>)
    ensures r.Some? ==> r.value in st.users && r.value.email == email
    ensures r.None? <==> forall u :: u in st.users ==> u.email != email
  {
    FindOne(st.users, (u: User) => u.email == email)
  }

  /** `Subject.findByPk(id)`. */
  function FindSubject(st: Store, id: nat): (r: Option<Subject>)
    ensures r.Some? ==> r.value in st.subjects && r.value.id == id
    ensures r.None? <==> !SubjectExists(st, id)
  {
    FindOne(st.subjects, (s: Subject) => s.id == id)
  }

  /** `Subject.findOne({where: {name}})`. */
  function FindSubjectByName(st: Store, name: string): (r: Option<Subject>)
    ensures r.Some? ==> r.value in st.subjects && r.value.name == name
    ensures r.None? <==> forall s :: s in st.subjects ==> s.name != name
  {
    FindOne(st.subjects, (s: Subject) => s.name == name)
  }

  /** `Grade.findByPk(id)`. */
  function FindGrade(st: Store, id: nat): (r: Option<Grade>)
    ensures r.Some? ==> r.value in st.grades && r.value.id == id
    ensures r.None? <==> !GradeExists(st, id)
  {
    FindOne(st.grades, (g: Grade) => g.id == id)
  }

  /** Whether grade row `g` links student `uid` to subject `sid`. */
  predicate ForPair(g: Grade, uid: nat, sid: nat) {
    g.studentId == Some(uid) && g.subjectId == Some(sid)
  }

  /** `Grade.findOne({where: {studentId, subjectId}})`. */
  function FindPair(st: Store, uid: nat, sid: nat): (r: Option<Grade>)
    ensures r.Some? ==> r.value in st.grades && ForPair(r.value, uid, sid)
    ensures r.None? <==> !Linked(st, uid, sid)
  {
    FindOne(st.grades, (g: Grade) => ForPair(g, uid, sid))
  }

  /** The number of grade rows for the pair (the pair is not a key). */
  function PairCount(st: Store, uid: nat, sid: nat): nat {
    Count(st.grades, (g: Grade) => ForPair(g, uid, sid))
  }

  // ---------------------------------------------------------------------------
  // The user/subject association through grades
  // ---------------------------------------------------------------------------

  /** A user's `Subjects` (the `belongsToMany` through grades, keyed by
      `studentId`): exactly the subjects some grade row of that user references. */
  function SubjectsOf(st: Store, uid: nat): (r: seq<Subject>)
    ensures |r| == Count(st.subjects, (s: Subject) => Linked(st, uid, s.id))
    ensures forall s :: s in r <==> s in st.subjects && Linked(st, uid, s.id)
  {
    Where(st.subjects, (s: Subject) => Linked(st, uid, s.id))
  }

  /** A subject's `Students` (the `belongsToMany` through grades, keyed by
      `subjectId`): exactly the users some grade row of that subject references. */
  function StudentsOf(st: Store, sid: nat): (r: seq<User>)
    ensures |r| == Count(st.users, (u: User) => Linked(st, u.id, sid))
    ensures forall u :: u in r <==> u in st.users && Linked(st, u.id, sid)
  {
    Where(st.users, (u: User) => Linked(st, u.id, sid))
  }

  // ---------------------------------------------------------------------------
  // Writes that the schema constrains
  // ---------------------------------------------------------------------------

  /** `Grade.create({value, studentId, subjectId})`: a row with a fresh id is
      appended, unless a non-null key names a missing row, which the foreign
      keys to users and subjects reject. */
  function InsertGrade(st: Store, value: Option<int>, uid: Option<nat>, sid: Option<nat>): (r: Option<Store>)
    ensures r.Some? <==> (uid.Some? ==> UserExists(st, uid.value)) && (sid.Some? ==> SubjectExists(st, sid.value))
    ensures r.Some? ==> r.value == st.(grades := st.grades + [Grade(st.nextGradeId, value, uid, sid)],
                                       nextGradeId := st.nextGradeId + 1)
  {
    if (uid.Some? && FindUser(st, uid.value).None?) || (sid.Some? && FindSubject(st, sid.value).None?) then None
    else Some(st.(grades := st.grades + [Grade(st.nextGradeId, value, uid, sid)], nextGradeId := st.nextGradeId + 1))
  }

  /** `User.destroy({where: {id}})`: the user row goes, and by `onDelete:
      'SET NULL'` every grade row that referenced it keeps its place, its id,
      its value and its subject but loses its student. */
  function DestroyUser(st: Store, id: nat): (r: Affected)
    ensures r.rows == 0 <==> !UserExists(st, id)
    ensures r.rows == Count(st.users, (u: User) => u.id == id) && |r.store.users| == |st.users| - r.rows
    ensures r.store.users == Destroy(st.users, (u: User) => u.id == id)
    ensures forall u :: u in r.store.users <==> u in st.users && u.id != id
    ensures |r.store.grades| == |st.grades|
    ensures forall i :: 0 <= i < |st.grades| ==>
      r.store.grades[i] == if st.grades[i].studentId == Some(id) then st.grades[i].(studentId := None) else st.grades[i]
    ensures r.store.subjects == st.subjects
    ensures r.store.nextUserId == st.nextUserId && r.store.nextSubjectId == st.nextSubjectId
    ensures r.store.nextGradeId == st.nextGradeId
  {
    var hit := (u: User) => u.id == id;
    Affected(Count(st.users, hit),
             st.(users := Destroy(st.users, hit),
                 grades := UpdateWhere(st.grades, (g: Grade) => g.studentId == Some(id),
                                       (g: Grade) => g.(studentId := None))))
  }

  /** `Subject.destroy({where: {id}})`: the subject row goes, and by
      `onDelete: 'SET NULL'` every grade row that referenced it loses its
      subject and keeps everything else. */
  function DestroySubject(st: Store, id: nat): (r: Affected)
    ensures r.rows == 0 <==> !SubjectExists(st, id)
    ensures r.rows == Count(st.subjects, (s: Subject) => s.id == id) && |r.store.subjects| == |st.subjects| - r.rows
    ensures r.store.subjects == Destroy(st.subjects, (s: Subject) => s.id == id)
    ensures forall s :: s in r.store.subjects <==> s in st.subjects && s.id != id
    ensures |r.store.grades| == |st.grades|
    ensures forall i :: 0 <= i < |st.grades| ==>
      r.store.grades[i] == if st.grades[i].subjectId == Some(id) then st.grades[i].(subjectId := None) else st.grades[i]
    ensures r.store.users == st.users
    ensures r.store.nextUserId == st.nextUserId && r.store.nextSubjectId == st.nextSubjectId
    ensures r.store.nextGradeId == st.nextGradeId
  {
    var hit := (s: Subject) => s.id == id;
    Affected(Count(st.subjects, hit),
             st.(subjects := Destroy(st.subjects, hit),
                 grades := UpdateWhere(st.grades, (g: Grade) => g.subjectId == Some(id),
                                       (g: Grade) => g.(subjectId := None))))
  }

  // ---------------------------------------------------------------------------
  // Properties of the schema
  // ---------------------------------------------------------------------------

  /** A newly created grade row never shares its id with an existing row. */
  lemma InsertedGradeIdIsFresh(st: Store, value: Option<int>, uid: Option<nat>, sid: Option<nat>)
    requires Valid(st)
    requires InsertGrade(st, value, uid, sid).Some?
    ensures !GradeExists(st, st.nextGradeId)
    ensures Valid(InsertGrade(st, value, uid, sid).value)
  {
    var st' := InsertGrade(st, value, uid, sid).value;
    var g := Grade(st.nextGradeId, value, uid, sid);
    assert forall h :: h in st'.grades ==> h in st.grades || h == g;
  }

  /** Rewriting every grade row by one function that keeps ids keeps the
      grade ids unique and below their counter. */
  lemma RemappedGradeKeys(st: Store, st': Store, f: Grade -> Grade)
    requires forall g, h :: g in st.grades && h in st.grades && g.id == h.id ==> g == h
    requires forall g :: g in st.grades ==> g.id < st.nextGradeId
    requires |st'.grades| == |st.grades| && st'.nextGradeId == st.nextGradeId
    requires forall g :: f(g).id == g.id
    requires forall i :: 0 <= i < |st.grades| ==> st'.grades[i] == f(st.grades[i])
    ensures forall g, h :: g in st'.grades && h in st'.grades && g.id == h.id ==> g == h
    ensures forall g :: g in st'.grades ==> g.id < st'.nextGradeId
  {
    forall g | g in st'.grades
      ensures g.id < st'.nextGradeId
    {
      var i :| 0 <= i < |st'.grades| && st'.grades[i] == g;
      assert st.grades[i] in st.grades;
    }
    forall g, h | g in st'.grades && h in st'.grades && g.id == h.id
      ensures g == h
    {
      var i :| 0 <= i < |st'.grades| && st'.grades[i] == g;
      var j :| 0 <= j < |st'.grades| && st'.grades[j] == h;
      assert st.grades[i] in st.grades && st.grades[j] in st.grades;
      assert st.grades[i] == st.grades[j];
    }
  }

  /** Rewriting every user row by one function that keeps ids and roles
      keeps the user ids unique and below their counter, and every grade
      reference intact. */
  lemma RemappedUsers(st: Store, st': Store, f: User -> User)
    requires FreshCounters(st) && PrimaryKeys(st) && ReferencesIntact(st)
    requires st' == st.(users := st'.users) && |st'.users| == |st.users|
    requires forall u :: f(u).id == u.id
    requires forall i :: 0 <= i < |st.users| ==> st'.users[i] == f(st.users[i])
    ensures FreshCounters(st') && PrimaryKeys(st') && ReferencesIntact(st')
  {
    forall u | u in st'.users
      ensures u.id < st'.nextUserId
    {
      var i :| 0 <= i < |st'.users| && st'.users[i] == u;
      assert st.users[i] in st.users;
    }
    forall u, v | u in st'.users && v in st'.users && u.id == v.id
      ensures u == v
    {
      var i :| 0 <= i < |st'.users| && st'.users[i] == u;
      var j :| 0 <= j < |st'.users| && st'.users[j] == v;
      assert st.users[i] in st.users && st.users[j] in st.users;
    }
    forall g | g in st'.grades && g.studentId.Some?
      ensures UserExists(st', g.studentId.value)
    {
      var u :| u in st.users && u.id == g.studentId.value;
      var i :| 0 <= i < |st.users| && st.users[i] == u;
      assert st'.users[i] in st'.users;
    }
  }

  /** Rewriting every subject row by one function that keeps ids keeps the
      subject ids unique and below their counter, and every grade reference
      intact. */
  lemma RemappedSubjects(st: Store, st': Store, f: Subject -> Subject)
    requires FreshCounters(st) && PrimaryKeys(st) && ReferencesIntact(st)
    requires st' == st.(subjects := st'.subjects) && |st'.subjects| == |st.subjects|
    requires forall s :: f(s).id == s.id
    requires forall i :: 0 <= i < |st.subjects| ==> st'.subjects[i] == f(st.subjects[i])
    ensures FreshCounters(st') && PrimaryKeys(st') && ReferencesIntact(st')
  {
    forall s | s in st'.subjects
      ensures s.id < st'.nextSubjectId
    {
      var i :| 0 <= i < |st'.subjects| && st'.subjects[i] == s;
      assert st.subjects[i] in st.subjects;
    }
    forall s, t | s in st'.subjects && t in st'.subjects && s.id == t.id
      ensures s == t
    {
      var i :| 0 <= i < |st'.subjects| && st'.subjects[i] == s;
      var j :| 0 <= j < |st'.subjects| && st'.subjects[j] == t;
      assert st.subjects[i] in st.subjects && st.subjects[j] in st.subjects;
    }
    forall g | g in st'.grades && g.subjectId.Some?
      ensures SubjectExists(st', g.subjectId.value)
    {
      var t :| t in st.subjects && t.id == g.subjectId.value;
      var i :| 0 <= i < |st.subjects| && st.subjects[i] == t;
      assert st'.subjects[i] in st'.subjects;
    }
  }

  /** Deleting a user keeps a well-formed store well formed: the SET NULL
      action leaves no grade row pointing at the removed user. */
  lemma DestroyUserKeepsValid(st: Store, id: nat)
    requires Valid(st)
    ensures Valid(DestroyUser(st, id).store)
    ensures forall g :: g in DestroyUser(st, id).store.grades ==> g.studentId != Some(id)
  {
    StudentNulledKeepsValid(st, DestroyUser(st, id).store, id);
  }

  /** The store after removing user `id` and nulling the references to it. */
  lemma StudentNulledKeepsValid(st: Store, st': Store, id: nat)
    requires Valid(st)
    requires forall u :: u in st'.users <==> u in st.users && u.id != id
    requires st'.subjects == st.subjects
    requires st'.nextUserId == st.nextUserId && st'.nextSubjectId == st.nextSubjectId && st'.nextGradeId == st.nextGradeId
    requires |st'.grades| == |st.grades|
    requires forall i :: 0 <= i < |st.grades| ==>
      st'.grades[i] == if st.grades[i].studentId == Some(id) then st.grades[i].(studentId := None) else st.grades[i]
    ensures Valid(st')
    ensures forall g :: g in st'.grades ==> g.studentId != Some(id)
  {
    RemappedGradeKeys(st, st', (g: Grade) => if g.studentId == Some(id) then g.(studentId := None) else g);
    forall g | g in st'.grades
      ensures g.studentId != Some(id)
      ensures g.studentId.Some? ==> UserExists(st', g.studentId.value)
      ensures g.subjectId.Some? ==> SubjectExists(st', g.subjectId.value)
    {
      var i :| 0 <= i < |st'.grades| && st'.grades[i] == g;
      assert st.grades[i] in st.grades;
      if g.studentId.Some? {
        var u :| u in st.users && u.id == g.studentId.value;
        assert u in st'.users;
      }
    }
  }

  /** Deleting a subject keeps a well-formed store well formed: the SET NULL
      action leaves no grade row pointing at the removed subject. */
  lemma DestroySubjectKeepsValid(st: Store, id: nat)
    requires Valid(st)
    ensures Valid(DestroySubject(st, id).store)
    ensures forall g :: g in DestroySubject(st, id).store.grades ==> g.subjectId != Some(id)
  {
    SubjectNulledKeepsValid(st, DestroySubject(st, id).store, id);
  }

  /** The store after removing subject `id` and nulling the references to it. */
  lemma SubjectNulledKeepsValid(st: Store, st': Store, id: nat)
    requires Valid(st)
    requires forall s :: s in st'.subjects <==> s in st.subjects && s.id != id
    requires st'.users == st.users
    requires st'.nextUserId == st.nextUserId && st'.nextSubjectId == st.nextSubjectId && st'.nextGradeId == st.nextGradeId
    requires |st'.grades| == |st.grades|
    requires forall i :: 0 <= i < |st.grades| ==>
      st'.grades[i] == if st.grades[i].subjectId == Some(id) then st.grades[i].(subjectId := None) else st.grades[i]
    ensures Valid(st')
    ensures forall g :: g in st'.grades ==> g.subjectId != Some(id)
  {
    RemappedGradeKeys(st, st', (g: Grade) => if g.subjectId == Some(id) then g.(subjectId := None) else g);
    forall g | g in st'.grades
      ensures g.subjectId != Some(id)
      ensures g.studentId.Some? ==> UserExists(st', g.studentId.value)
      ensures g.subjectId.Some? ==> SubjectExists(st', g.subjectId.value)
    {
      var i :| 0 <= i < |st'.grades| && st'.grades[i] == g;
      assert st.grades[i] in st.grades;
      if g.subjectId.Some? {
        var s :| s in st.subjects && s.id == g.subjectId.value;
        assert s in st'.subjects;
      }
    }
  }
}

=== FILE: students.dfy ===
/** The student handlers a professor calls: the listing and lookup of
    students with their subjects, creating a student account through the
    registration handler, and the update and delete by id. The update and
    delete filter on the id only, so they reach any user, professors
    included. */
module Students {
  import opened Wrappers
  import opened Tables
  import opened Schema
  import opened Credentials
  import opened Http
  import Users

  /** A student row with its `Subjects` included through the grade rows. */
  function ViewOf(st: Store, u: User): (v: StudentView)
    ensures v.user == u
    ensures |v.subjects| == Count(st.subjects, (s: Subject) => Linked(st, u.id, s.id))
    ensures forall s :: s in v.subjects <==> s in st.subjects && Linked(st, u.id, s.id)
  {
    StudentView(u, SubjectsOf(st, u.id))
  }

  /** `getAllStudents`: exactly the users whose role is student, in storage
      order, each with the subjects it has a grade row for. */
  function GetAllStudents(st: Store): (r: Reply)
    ensures r.store == st && r.response.StudentList?
    ensures |r.response.students| == Count(st.users, (u: User) => u.role == Student)
    ensures forall v :: v in r.response.students ==>
      v.user in st.users && v.user.role == Student && v == ViewOf(st, v.user)
    ensures forall u :: u in st.users && u.role == Student ==> ViewOf(st, u) in r.response.students
  {
    var students := Where(st.users, (u: User) => u.role == Student);
    var views := ViewsOf(st, students);
    assert forall v :: v in views ==> v.user in students && v == ViewOf(st, v.user) by {
      forall v | v in views ensures v.user in students && v == ViewOf(st, v.user) {
        var i :| 0 <= i < |views| && views[i] == v;
        assert students[i] in students;
      }
    }
    assert forall u :: u in students ==> ViewOf(st, u) in views by {
      forall u | u in students ensures ViewOf(st, u) in views {
        var i :| 0 <= i < |students| && students[i] == u;
        assert views[i] == ViewOf(st, u);
      }
    }
    Reply(StudentList(views), st)
  }

  /** The views of `us`, position by position. */
  function ViewsOf(st: Store, us: seq<User>): (vs: seq<StudentView>)
    ensures |vs| == |us|
    ensures forall i :: 0 <= i < |us| ==> vs[i] == ViewOf(st, us[i])
  {
    seq(|us|, i requires 0 <= i < |us| => ViewOf(st, us[i]))
  }

  /** `getStudentById`: the student with that id and its subjects, or
      "Student not found" when no user with that id has the student role. */
  function GetStudentById(st: Store, id: nat): (r: Reply)
    ensures r.store == st
    ensures !StudentExists(st, id) ==> r.response == StudentNotFound
    ensures StudentExists(st, id) ==>
      && r.response.StudentBody?
      && r.response.student.user in st.users
      && r.response.student.user.id == id && r.response.student.user.role == Student
      && |r.response.student.subjects| == Count(st.subjects, (s: Subject) => Linked(st, id, s.id))
      && (forall s :: s in r.response.student.subjects <==> s in st.subjects && Linked(st, id, s.id))
  {
    match FindStudent(st, id)
    case None => Reply(StudentNotFound, st)
    case Some(u) => Reply(StudentBody(ViewOf(st, u)), st)
  }

  /** `addStudent`: registration with the role forced to student, whatever
      the body asked for. */
  function AddStudent(c: Crypto, st: Store, reg: Users.Registration): (r: Reply)
    ensures (exists u :: u in st.users && u.email == reg.email) ==> r == Reply(InternalError, st)
    ensures (forall u :: u in st.users ==> u.email != reg.email) ==>
      && r.response.Session?
      && r.response.user.role == Student
      && r.response.user.firstName == reg.firstName && r.response.user.lastName == reg.lastName
      && r.response.user.email == reg.email
      && r.response.user.password == c.hash(reg.password)
      && r.response.token == c.sign(Identity(r.response.user.id, Student))
      && r.store.users == st.users + [r.response.user]
      && r.store.subjects == st.subjects && r.store.grades == st.grades
      && (FreshCounters(st) ==> !UserExists(st, r.response.user.id))
  {
    Users.Register(c, st, reg.(role := Some(Student)))
  }

  /** `updateStudent`: the row with that id takes the given fields (the
      password rehashed only when one is given) whatever its role; "Student
      not found" when no row has the id or nothing was written. */
  function UpdateStudent(c: Crypto, st: Store, id: nat, patch: Users.ProfilePatch): (r: Reply)
    ensures Users.EmailClash(st, id, patch) ==> r == Reply(InternalError, st)
    ensures !UserExists(st, id) || !Users.WritesSomething(patch) ==> r == Reply(StudentNotFound, st)
    ensures UserExists(st, id) && Users.WritesSomething(patch) && !Users.EmailClash(st, id, patch) ==>
      && r.response == ProfileUpdated
      && |r.store.users| == |st.users|
      && (forall i :: 0 <= i < |st.users| && st.users[i].id != id ==> r.store.users[i] == st.users[i])
      && (forall i :: 0 <= i < |st.users| && st.users[i].id == id ==>
            r.store.users[i] == Users.Patched(c, patch, st.users[i]))
      && r.store == st.(users := r.store.users)
  {
    match Users.UpdateUserRow(c, st, id, patch)
    case None => Reply(InternalError, st)
    case Some(a) => if a.rows > 0 then Reply(ProfileUpdated, a.store) else Reply(StudentNotFound, st)
  }

  /** `deleteStudent`: the user with that id is deleted whatever its role and
      its grade rows lose their student; "Student not found" when no row has
      the id. */
  function DeleteStudent(st: Store, id: nat): (r: Reply)
    ensures !UserExists(st, id) ==> r == Reply(StudentNotFound, st)
    ensures UserExists(st, id) ==> r == Reply(StudentDeleted, DestroyUser(st, id).store)
    ensures UserExists(st, id) ==>
      && r.response == StudentDeleted
      && (forall u :: u in r.store.users <==> u in st.users && u.id != id)
      && |r.store.grades| == |st.grades|
      && (forall g :: g in r.store.grades ==> g.studentId != Some(id))
      && r.store.subjects == st.subjects
  {
    var a := DestroyUser(st, id);
    if a.rows > 0 then
      assert forall g :: g in a.store.grades ==> g.studentId != Some(id) by {
        forall g | g in a.store.grades ensures g.studentId != Some(id) {
          var i :| 0 <= i < |a.store.grades| && a.store.grades[i] == g;
        }
      }
      Reply(StudentDeleted, a.store)
    else Reply(StudentNotFound, st)
  }

  // ---------------------------------------------------------------------------
  // Properties across calls
  // ---------------------------------------------------------------------------

  /** A student the professor adds is then found by id, as a student and with
      no subjects yet. */
  lemma AddThenGetStudent(c: Crypto, st: Store, reg: Users.Registration)
    requires Valid(st)
    requires forall u :: u in st.users ==> u.email != reg.email
    ensures var added := AddStudent(c, st, reg);
      && added.response.Session?
      && GetStudentById(added.store, added.response.user.id).response
         == StudentBody(StudentView(added.response.user, []))
  {
    var added := AddStudent(c, st, reg);
    var u := added.response.user;
    var st' := added.store;
    assert !UserExists(st, u.id);
    assert u in st'.users && u.role == Student;
    assert forall v :: v in st'.users && v.id == u.id ==> v == u by {
      forall v | v in st'.users && v.id == u.id ensures v == u {
        assert v in st.users || v == u;
      }
    }
  }

  /** The update and delete by id reach a professor's account as well: the
      handlers never check the role of the row they change. */
  lemma ProfessorReachable(c: Crypto, st: Store, p: User, patch: Users.ProfilePatch)
    requires PrimaryKeys(st)
    requires p in st.users && p.role == Professor
    requires Users.WritesSomething(patch) && !Users.EmailClash(st, p.id, patch)
    ensures UpdateStudent(c, st, p.id, patch).response == ProfileUpdated
    ensures DeleteStudent(st, p.id).response == StudentDeleted
    ensures GetStudentById(st, p.id).response == StudentNotFound
  {
    assert !StudentExists(st, p.id);
  }

  // ---------------------------------------------------------------------------
  // The student handlers keep a well-formed store well formed
  // ---------------------------------------------------------------------------

  lemma AddStudentKeepsValid(c: Crypto, st: Store, reg: Users.Registration)
    requires Valid(st)
    ensures Valid(AddStudent(c, st, reg).store)
  {
    Users.RegisterKeepsValid(c, st, reg.(role := Some(Student)));
  }

  lemma UpdateStudentKeepsValid(c: Crypto, st: Store, id: nat, patch: Users.ProfilePatch)
    requires Valid(st)
    ensures Valid(UpdateStudent(c, st, id, patch).store)
  {
    Users.UpdateUserRowKeepsValid(c, st, id, patch);
  }

  lemma DeleteStudentKeepsValid(st: Store, id: nat)
    requires Valid(st)
    ensures Valid(DeleteStudent(st, id).store)
  {
    DestroyUserKeepsValid(st, id);
  }
}

=== FILE: subjects.dfy ===
/** The subject handlers: listing, lookup, the caller's own subjects,
    creation and renaming under a name-uniqueness check, deletion, and
    assigning a subject to a student or removing it again. */
module Subjects {
  import opened Wrappers
  import opened Tables
  import opened Schema
  import opened Credentials
  import opened Http

  /** Some subject is already called `name`. */
  predicate NameHeld(st: Store, name: string) {
    exists s :: s in st.subjects && s.name == name
  }

  /** The value on the linking row of a user and a subject, as `through:
      {attributes: ['value']}` reports it. */
  function PairValue(st: Store, uid: nat, sid: nat): Option<int> {
    match FindPair(st, uid, sid)
    case Some(g) => g.value
    case None => None
  }

  /** A subject's `Students` with the value on their linking row: exactly
      one entry for each row of the users table linked to the subject, in
      storage order. */
  function Enrolments(st: Store, sid: nat): (r: seq<Enrolment>)
    ensures |r| == Count(st.users, (u: User) => Linked(st, u.id, sid))
    ensures forall e :: e in r ==>
      exists u :: u in st.users && u.id == e.id && u.firstName == e.firstName && u.lastName == e.lastName
                  && Linked(st, u.id, sid) && e.value == PairValue(st, u.id, sid)
    ensures forall u :: u in st.users && Linked(st, u.id, sid) ==>
      Enrolment(u.id, u.firstName, u.lastName, PairValue(st, u.id, sid)) in r
  {
    var students := StudentsOf(st, sid);
    var r := EnrolmentsOf(st, sid, students);
    EnrolmentsCover(st, sid, students, r);
    r
  }

  /** The enrolments built from the linked users are exactly theirs. */
  lemma EnrolmentsCover(st: Store, sid: nat, students: seq<User>, r: seq<Enrolment>)
    requires forall u :: u in students <==> u in st.users && Linked(st, u.id, sid)
    requires |r| == |students|
    requires forall i :: 0 <= i < |students| ==>
      r[i] == Enrolment(students[i].id, students[i].firstName, students[i].lastName, PairValue(st, students[i].id, sid))
    ensures forall e :: e in r ==>
      exists u :: u in st.users && u.id == e.id && u.firstName == e.firstName && u.lastName == e.lastName
                  && Linked(st, u.id, sid) && e.value == PairValue(st, u.id, sid)
    ensures forall u :: u in st.users && Linked(st, u.id, sid) ==>
      Enrolment(u.id, u.firstName, u.lastName, PairValue(st, u.id, sid)) in r
  {
    forall e | e in r
      ensures exists u :: u in st.users && u.id == e.id && u.firstName == e.firstName && u.lastName == e.lastName
                          && Linked(st, u.id, sid)
    {
      var i :| 0 <= i < |r| && r[i] == e;
      assert students[i] in students;
    }
    forall u | u in st.users && Linked(st, u.id, sid)
      ensures Enrolment(u.id, u.firstName, u.lastName, PairValue(st, u.id, sid)) in r
    {
      assert u in students;
      var i :| 0 <= i < |students| && students[i] == u;
      assert r[i] == Enrolment(u.id, u.firstName, u.lastName, PairValue(st, u.id, sid));
    }
  }

  /** The enrolments of `users` in subject `sid`, position by position. */
  function EnrolmentsOf(st: Store, sid: nat, users: seq<User>): (r: seq<Enrolment>)
    ensures |r| == |users|
    ensures forall i :: 0 <= i < |users| ==>
      r[i] == Enrolment(users[i].id, users[i].firstName, users[i].lastName, PairValue(st, users[i].id, sid))
  {
    seq(|users|, i requires 0 <= i < |users| =>
      Enrolment(users[i].id, users[i].firstName, users[i].lastName, PairValue(st, users[i].id, sid)))
  }

  /** `getAllSubjects`: every subject in storage order, each with exactly the
      users linked to it by a grade row. */
  function GetAllSubjects(st: Store): (r: Reply)
    ensures r.store == st && r.response.SubjectList?
    ensures |r.response.subjects| == |st.subjects|
    ensures forall i :: 0 <= i < |st.subjects| ==>
      && r.response.subjects[i].subject == st.subjects[i]
      && r.response.subjects[i].students == Enrolments(st, st.subjects[i].id)
  {
    Reply(SubjectList(seq(|st.subjects|, i requires 0 <= i < |st.subjects| =>
      SubjectView(st.subjects[i], Enrolments(st, st.subjects[i].id)))), st)
  }

  /** `getSubjectById`: the subject with that id, or "Subject not found". */
  function GetSubjectById(st: Store, id: nat): (r: Reply)
    ensures r.store == st
    ensures !SubjectExists(st, id) ==> r.response == SubjectNotFound
    ensures SubjectExists(st, id) ==> r.response.SubjectBody? && r.response.subject in st.subjects && r.response.subject.id == id
  {
    match FindSubject(st, id)
    case None => Reply(SubjectNotFound, st)
    case Some(s) => Reply(SubjectBody(s), st)
  }

  /** The caller's grade rows for one subject. */
  function OwnGrades(st: Store, uid: nat, s: Subject): (r: OwnSubject)
    ensures r.subject == s
    ensures |r.grades| == Count(st.grades, (g: Grade) => ForPair(g, uid, s.id))
    ensures forall g :: g in r.grades <==> g in st.grades && ForPair(g, uid, s.id)
  {
    OwnSubject(s, Where(st.grades, (g: Grade) => ForPair(g, uid, s.id)))
  }

  /** `studentSubject`: exactly the subjects that have at least one grade row
      of the caller, each with the caller's grade rows for it. */
  function StudentSubject(st: Store, caller: Identity): (r: Reply)
    ensures r.store == st && r.response.StudentSubjects?
    ensures |r.response.own| == Count(st.subjects, (s: Subject) => Linked(st, caller.id, s.id))
    ensures forall v :: v in r.response.own ==> v.subject in st.subjects && Linked(st, caller.id, v.subject.id)
    ensures forall s :: s in st.subjects && Linked(st, caller.id, s.id) ==> OwnGrades(st, caller.id, s) in r.response.own
    ensures forall v, g :: v in r.response.own ==>
      (g in v.grades <==> g in st.grades && ForPair(g, caller.id, v.subject.id))
    ensures forall v :: v in r.response.own ==> v == OwnGrades(st, caller.id, v.subject)
  {
    var subjects := SubjectsOf(st, caller.id);
    var own := OwnSubjects(st, caller.id, subjects);
    OwnSubjectsCover(st, caller.id, subjects, own);
    Reply(StudentSubjects(own), st)
  }

  /** The entries built from the caller's linked subjects are exactly theirs. */
  lemma OwnSubjectsCover(st: Store, uid: nat, subjects: seq<Subject>, own: seq<OwnSubject>)
    requires forall s :: s in subjects <==> s in st.subjects && Linked(st, uid, s.id)
    requires |own| == |subjects|
    requires forall i :: 0 <= i < |subjects| ==> own[i] == OwnGrades(st, uid, subjects[i])
    ensures forall v :: v in own ==> v.subject in st.subjects && Linked(st, uid, v.subject.id)
    ensures forall s :: s in st.subjects && Linked(st, uid, s.id) ==> OwnGrades(st, uid, s) in own
    ensures forall v, g :: v in own ==> (g in v.grades <==> g in st.grades && ForPair(g, uid, v.subject.id))
    ensures forall v :: v in own ==> v == OwnGrades(st, uid, v.subject)
  {
    forall v | v in own
      ensures v.subject in subjects && v == OwnGrades(st, uid, v.subject)
    {
      var i :| 0 <= i < |own| && own[i] == v;
      assert subjects[i] in subjects;
    }
    forall s | s in st.subjects && Linked(st, uid, s.id)
      ensures OwnGrades(st, uid, s) in own
    {
      assert s in subjects;
      var i :| 0 <= i < |subjects| && subjects[i] == s;
      assert own[i] == OwnGrades(st, uid, s);
    }
  }

  /** The caller's grades for each of `subjects`, position by position. */
  function OwnSubjects(st: Store, uid: nat, subjects: seq<Subject>): (own: seq<OwnSubject>)
    ensures |own| == |subjects|
    ensures forall i :: 0 <= i < |subjects| ==> own[i] == OwnGrades(st, uid, subjects[i])
  {
    seq(|subjects|, i requires 0 <= i < |subjects| => OwnGrades(st, uid, subjects[i]))
  }

  /** `addSubjects`: a name some subject already has is refused and nothing
      changes; otherwise exactly one subject with that name and a fresh id is
      added, and nothing else changes. */
  function AddSubjects(st: Store, name: string): (r: Reply)
    ensures NameHeld(st, name) ==> r == Reply(SubjectNameTaken, st)
    ensures !NameHeld(st, name) ==>
      && r.response.SubjectBody?
      && r.response.subject.name == name
      && r.store.subjects == st.subjects + [r.response.subject]
      && r.store.users == st.users && r.store.grades == st.grades
      && r.store.nextUserId == st.nextUserId && r.store.nextGradeId == st.nextGradeId
      && (FreshCounters(st) ==> !SubjectExists(st, r.response.subject.id))
  {
    if FindSubjectByName(st, name).Some? then Reply(SubjectNameTaken, st)
    else
      var s := Subject(st.nextSubjectId, name);
      Reply(SubjectBody(s), st.(subjects := st.subjects + [s], nextSubjectId := st.nextSubjectId + 1))
  }

  /** The `!subjectId` test on the request body: a subject id sent as a JSON
      number is missing when absent and when it is `0`, which JavaScript
      treats as false. The student id comes from the path as a string, and
      only an absent one is missing. */
  predicate GivenId(id: Option<nat>) {
    id.Some? && id.value != 0
  }

  /** `assignSubjectToStudent`: a missing id, an id that is not a student's,
      or an unknown subject leaves the store as it was; otherwise a new grade
      row with a null value is inserted without looking for an existing one,
      so the pair gains exactly one more row. */
  function AssignSubjectToStudent(st: Store, studentId: Option<nat>, subjectId: Option<nat>): (r: Reply)
    ensures studentId.None? || !GivenId(subjectId) ==> r == Reply(MissingIds, st)
    ensures studentId.Some? && GivenId(subjectId)
      && (!StudentExists(st, studentId.value) || !SubjectExists(st, subjectId.value))
      ==> r == Reply(StudentOrSubjectNotFound, st)
    ensures (studentId.Some? && GivenId(subjectId)
             && StudentExists(st, studentId.value) && SubjectExists(st, subjectId.value)) ==>
      && r.response == SubjectAssigned
      && r.store.grades == st.grades + [Grade(st.nextGradeId, None, studentId, subjectId)]
      && r.store.users == st.users && r.store.subjects == st.subjects
      && PairCount(r.store, studentId.value, subjectId.value) == PairCount(st, studentId.value, subjectId.value) + 1
  {
    if studentId.None? || !GivenId(subjectId) then Reply(MissingIds, st)
    else if FindStudent(st, studentId.value).None? || FindSubject(st, subjectId.value).None? then
      Reply(StudentOrSubjectNotFound, st)
    else
      match InsertGrade(st, None, studentId, subjectId)
      case None => Reply(InternalError, st)
      case Some(st') =>
        CountAppend(st.grades, Grade(st.nextGradeId, None, studentId, subjectId),
                    (g: Grade) => ForPair(g, studentId.value, subjectId.value));
        Reply(SubjectAssigned, st')
  }

  /** `updateSubjects`: the new name is checked against every subject,
      including the one being renamed; a held name is refused, an unknown id
      is "Subject not found", and otherwise only the subject with that id
      takes the new name. */
  function UpdateSubjects(st: Store, id: nat, name: string): (r: Reply)
    ensures NameHeld(st, name) ==> r == Reply(SubjectNameTaken, st)
    ensures !NameHeld(st, name) && !SubjectExists(st, id) ==> r == Reply(SubjectNotFound, st)
    ensures !NameHeld(st, name) && SubjectExists(st, id) ==>
      && r.response == SubjectUpdated
      && |r.store.subjects| == |st.subjects|
      && (forall i :: 0 <= i < |st.subjects| ==>
            r.store.subjects[i] == if st.subjects[i].id == id then Subject(id, name) else st.subjects[i])
      && r.store.users == st.users && r.store.grades == st.grades
      && r.store.nextUserId == st.nextUserId && r.store.nextSubjectId == st.nextSubjectId
      && r.store.nextGradeId == st.nextGradeId
  {
    if FindSubjectByName(st, name).Some? then Reply(SubjectNameTaken, st)
    else
      var hit := (s: Subject) => s.id == id;
      if Count(st.subjects, hit) > 0 then
        Reply(SubjectUpdated, st.(subjects := UpdateWhere(st.subjects, hit, (s: Subject) => s.(name := name))))
      else Reply(SubjectNotFound, st)
  }

  /** `deleteSubjects`: an unknown id is "Subject not found" and nothing
      changes; otherwise the subject goes and its grade rows lose their subject. */
  function DeleteSubjects(st: Store, id: nat): (r: Reply)
    ensures !SubjectExists(st, id) ==> r == Reply(SubjectNotFound, st)
    ensures SubjectExists(st, id) ==> r == Reply(SubjectDeleted, DestroySubject(st, id).store)
    ensures SubjectExists(st, id) ==> !SubjectExists(r.store, id) && |r.store.grades| == |st.grades|
  {
    var a := DestroySubject(st, id);
    if a.rows > 0 then Reply(SubjectDeleted, a.store) else Reply(SubjectNotFound, st)
  }

  /** `removeSubjectFromStudent`: with no row for the pair the answer is the
      404 message and nothing changes; otherwise every row for the pair is
      deleted, and no other row. */
  function RemoveSubjectFromStudent(st: Store, studentId: nat, subjectId: nat): (r: Reply)
    ensures !Linked(st, studentId, subjectId) ==> r == Reply(NotAssigned, st)
    ensures Linked(st, studentId, subjectId) ==>
      && r.response == SubjectRemoved
      && (forall g :: g in r.store.grades <==> g in st.grades && !ForPair(g, studentId, subjectId))
      && |r.store.grades| == |st.grades| - PairCount(st, studentId, subjectId)
      && r.store == st.(grades := r.store.grades)
  {
    if FindPair(st, studentId, subjectId).None? then Reply(NotAssigned, st)
    else Reply(SubjectRemoved, st.(grades := Destroy(st.grades, (g: Grade) => ForPair(g, studentId, subjectId))))
  }

  // ---------------------------------------------------------------------------
  // Properties across calls
  // ---------------------------------------------------------------------------

  /** Renaming a subject to the name it already has is always refused as a
      duplicate, because the check does not leave the subject itself out. */
  lemma RenameToOwnNameRejected(st: Store, s: Subject)
    requires s in st.subjects
    ensures UpdateSubjects(st, s.id, s.name) == Reply(SubjectNameTaken, st)
  {
  }

  /** After a successful assignment the subject is among the student's
      `Subjects` and the student among the subject's `Students`. */
  lemma AssignLinks(st: Store, studentId: nat, subjectId: nat)
    requires AssignSubjectToStudent(st, Some(studentId), Some(subjectId)).response == SubjectAssigned
    ensures var st' := AssignSubjectToStudent(st, Some(studentId), Some(subjectId)).store;
      && (exists s :: s in SubjectsOf(st', studentId) && s.id == subjectId)
      && (exists u :: u in StudentsOf(st', subjectId) && u.id == studentId && u.role == Student)
  {
    var st' := AssignSubjectToStudent(st, Some(studentId), Some(subjectId)).store;
    var g := Grade(st.nextGradeId, None, Some(studentId), Some(subjectId));
    assert g in st'.grades;
    var s :| s in st.subjects && s.id == subjectId;
    var u :| u in st.users && u.id == studentId && u.role == Student;
    assert s in SubjectsOf(st', studentId);
    assert u in StudentsOf(st', subjectId);
  }

  /** After a successful removal the pair is no longer linked at all, even
      when it had been assigned several times. */
  lemma RemoveUnlinks(st: Store, studentId: nat, subjectId: nat)
    ensures !Linked(RemoveSubjectFromStudent(st, studentId, subjectId).store, studentId, subjectId)
    ensures forall s :: s in SubjectsOf(RemoveSubjectFromStudent(st, studentId, subjectId).store, studentId) ==> s.id != subjectId
  {
  }

  // ---------------------------------------------------------------------------
  // Every subject handler keeps a well-formed store well formed
  // ---------------------------------------------------------------------------

  lemma AddSubjectsKeepsValid(st: Store, name: string)
    requires Valid(st)
    ensures Valid(AddSubjects(st, name).store)
  {
    if !NameHeld(st, name) {
      var st' := AddSubjects(st, name).store;
      var n := Subject(st.nextSubjectId, name);
      assert forall s :: s in st'.subjects ==> s in st.subjects || s == n;
      assert forall g :: g in st'.grades ==> g in st.grades;
      forall g | g in st'.grades && g.subjectId.Some?
        ensures SubjectExists(st', g.subjectId.value)
      {
        var s :| s in st.subjects && s.id == g.subjectId.value;
        assert s in st'.subjects;
      }
    }
  }

  /** A rename to a name no subject holds keeps subject names unique. */
  lemma RenameKeepsNamesUnique(st: Store, subjects: seq<Subject>, id: nat, name: string)
    requires UniqueNames(st) && !NameHeld(st, name)
    requires |subjects| == |st.subjects|
    requires forall i :: 0 <= i < |st.subjects| ==>
      subjects[i] == if st.subjects[i].id == id then Subject(id, name) else st.subjects[i]
    ensures forall s, t :: s in subjects && t in subjects && s.name == t.name ==> s == t
  {
    forall s, t | s in subjects && t in subjects && s.name == t.name
      ensures s == t
    {
      var i :| 0 <= i < |subjects| && subjects[i] == s;
      var j :| 0 <= j < |subjects| && subjects[j] == t;
      assert st.subjects[i] in st.subjects && st.subjects[j] in st.subjects;
    }
  }

  lemma UpdateSubjectsKeepsValid(st: Store, id: nat, name: string)
    requires Valid(st)
    ensures Valid(UpdateSubjects(st, id, name).store)
  {
    if !NameHeld(st, name) && SubjectExists(st, id) {
      var st' := UpdateSubjects(st, id, name).store;
      RemappedSubjects(st, st', (s: Subject) => if s.id == id then Subject(id, name) else s);
      RenameKeepsNamesUnique(st, st'.subjects, id, name);
    }
  }

  lemma AssignSubjectKeepsValid(st: Store, studentId: Option<nat>, subjectId: Option<nat>)
    requires Valid(st)
    ensures Valid(AssignSubjectToStudent(st, studentId, subjectId).store)
  {
    if studentId.Some? && subjectId.Some? && StudentExists(st, studentId.value) && SubjectExists(st, subjectId.value) {
      InsertedGradeIdIsFresh(st, None, studentId, subjectId);
    }
  }

  lemma DeleteSubjectsKeepsValid(st: Store, id: nat)
    requires Valid(st)
    ensures Valid(DeleteSubjects(st, id).store)
  {
    DestroySubjectKeepsValid(st, id);
  }

  lemma RemoveSubjectKeepsValid(st: Store, studentId: nat, subjectId: nat)
    requires Valid(st)
    ensures Valid(RemoveSubjectFromStudent(st, studentId, subjectId).store)
  {
  }
}

=== FILE: tables.dfy ===
/** Row-level primitives that the ORM calls of the catalog reduce to.
    A table is a sequence of rows in storage order. A `findOne` without an
    ORDER BY may return any matching row; the model picks the first one in
    storage order. `findAll` keeps the matching rows, `destroy` drops them
    and `update` rewrites them in place. */
module Tables {
  import opened Wrappers

  /** `findOne({where: p})`: some row satisfying `p`, or nothing when no row does. */
  function FindOne<T>(rows: seq<T>, p: T -> bool): (r: Option<T>)
    ensures r.Some? ==> r.value in rows && p(r.value)
    ensures r.None? <==> forall x :: x in rows ==> !p(x)
  {
    if |rows| == 0 then None
    else if p(rows[0]) then Some(rows[0])
    else
      assert forall x :: x in rows ==> x == rows[0] || x in rows[1..];
      FindOne(rows[1..], p)
  }

  /** The number of rows satisfying `p` (the affected-row count of a write). */
  function Count<T>(rows: seq<T>, p: T -> bool): (n: nat)
    ensures n <= |rows|
    ensures n == 0 <==> forall x :: x in rows ==> !p(x)
  {
    if |rows| == 0 then 0
    else
      assert forall x :: x in rows ==> x == rows[0] || x in rows[1..];
      (if p(rows[0]) then 1 else 0) + Count(rows[1..], p)
  }

  /** `findAll({where: p})`: the rows satisfying `p`, in storage order. */
  function Where<T(!new)>(rows: seq<T>, p: T -> bool): (r: seq<T>)
    ensures |r| == Count(rows, p)
    ensures forall x :: x in r <==> x in rows && p(x)
  {
    if |rows| == 0 then []
    else
      assert forall x :: x in rows ==> x == rows[0] || x in rows[1..];
      if p(rows[0]) then [rows[0]] + Where(rows[1..], p) else Where(rows[1..], p)
  }

  /** `destroy({where: p})`: the table with every row satisfying `p` removed. */
  function Destroy<T(!new)>(rows: seq<T>, p: T -> bool): (r: seq<T>)
    ensures |r| == |rows| - Count(rows, p)
    ensures forall x :: x in r <==> x in rows && !p(x)
  {
    if |rows| == 0 then []
    else
      assert forall x :: x in rows ==> x == rows[0] || x in rows[1..];
      if p(rows[0]) then Destroy(rows[1..], p) else [rows[0]] + Destroy(rows[1..], p)
  }

  /** `update(f, {where: p})`: every row satisfying `p` is replaced by its
      image under `f`, every other row stays where and as it was. */
  function UpdateWhere<T>(rows: seq<T>, p: T -> bool, f: T -> T): (r: seq<T>)
    ensures |r| == |rows|
    ensures forall i :: 0 <= i < |rows| ==> r[i] == (if p(rows[i]) then f(rows[i]) else rows[i])
  {
    if |rows| == 0 then []
    else [if p(rows[0]) then f(rows[0]) else rows[0]] + UpdateWhere(rows[1..], p, f)
  }

  /** Appending one row adds one to the count exactly when that row matches. */
  lemma {:induction false} CountAppend<T>(rows: seq<T>, x: T, p: T -> bool)
    ensures Count(rows + [x], p) == Count(rows, p) + (if p(x) then 1 else 0)
  {
    if |rows| == 0 {
      assert rows + [x] == [x];
    } else {
      assert (rows + [x])[1..] == rows[1..] + [x];
      CountAppend(rows[1..], x, p);
    }
  }

  /** An update whose rewrite never changes whether a row satisfies `q`
      leaves the number of rows satisfying `q` as it was. */
  lemma {:induction false} CountUpdateWhere<T>(rows: seq<T>, p: T -> bool, f: T -> T, q: T -> bool)
    requires forall x :: q(f(x)) == q(x)
    ensures Count(UpdateWhere(rows, p, f), q) == Count(rows, q)
  {
    if |rows| != 0 {
      var r := UpdateWhere(rows, p, f);
      assert r[1..] == UpdateWhere(rows[1..], p, f);
      CountUpdateWhere(rows[1..], p, f, q);
    }
  }
}

=== FILE: users.dfy ===
/** The account handlers: registration, login, reading and updating one's
    own profile, and the row update that profile and student edits share. */
module Users {
  import opened Wrappers
  import opened Tables
  import opened Schema
  import opened Credentials
  import opened Http

  /** A registration body; an absent `role` defaults to student. */
  datatype Registration = Registration(firstName: string, lastName: string, email: string, password: string, role: Option<Role>)

  /** A profile update body: absent fields are left as they are. */
  datatype ProfilePatch = ProfilePatch(firstName: Option<string>, lastName: Option<string>, email: Option<string>, password: Option<string>)

  /** `if (password)`: only a present, non-empty password is rehashed. */
  predicate Rehashes(patch: ProfilePatch) {
    patch.password.Some? && patch.password.value != []
  }

  /** Whether the patch writes any column: a name or email that is given, or
      a password that is rehashed. `Model.update` skips a write with no such
      column and reports no rows changed. */
  predicate WritesSomething(patch: ProfilePatch) {
    patch.firstName.Some? || patch.lastName.Some? || patch.email.Some? || Rehashes(patch)
  }

  /** The row a patch turns `u` into. */
  function Patched(c: Crypto, patch: ProfilePatch, u: User): (v: User)
    ensures v.id == u.id && v.role == u.role
    ensures v.firstName == patch.firstName.GetOr(u.firstName) && v.lastName == patch.lastName.GetOr(u.lastName)
    ensures v.email == patch.email.GetOr(u.email)
    ensures v.password == (if Rehashes(patch) then c.hash(patch.password.value) else u.password)
    ensures !WritesSomething(patch) ==> v == u
  {
    u.(firstName := patch.firstName.GetOr(u.firstName),
       lastName := patch.lastName.GetOr(u.lastName),
       email := patch.email.GetOr(u.email),
       password := if Rehashes(patch) then c.hash(patch.password.value) else u.password)
  }

  /** Whether the patch would give user `id` an email another user has, which
      the unique email column rejects (only when a row is actually updated). */
  predicate EmailClash(st: Store, id: nat, patch: ProfilePatch) {
    && patch.email.Some?
    && UserExists(st, id)
    && exists v :: v in st.users && v.id != id && v.email == patch.email.value
  }

  /** `User.update(updateData, {where: {id}})` as `updateStudent` and
      `updateProfile` build it: no role filter, the given fields only, and
      the password rehashed only when one is supplied. Nothing when the
      email column's uniqueness rejects the write; no rows when the patch
      writes no column. */
  function UpdateUserRow(c: Crypto, st: Store, id: nat, patch: ProfilePatch): (r: Option<Affected>)
    ensures r.None? <==> EmailClash(st, id, patch)
    ensures r.Some? ==> (r.value.rows == 0 <==> !UserExists(st, id) || !WritesSomething(patch))
    ensures r.Some? ==>
      && |r.value.store.users| == |st.users|
      && (forall i :: 0 <= i < |st.users| ==>
            r.value.store.users[i] == if st.users[i].id == id then Patched(c, patch, st.users[i]) else st.users[i])
      && r.value.store.subjects == st.subjects && r.value.store.grades == st.grades
      && r.value.store.nextUserId == st.nextUserId && r.value.store.nextSubjectId == st.nextSubjectId
      && r.value.store.nextGradeId == st.nextGradeId
  {
    var hit := (u: User) => u.id == id;
    if patch.email.Some? && FindUser(st, id).Some?
       && FindOne(st.users, (v: User) => v.id != id && v.email == patch.email.value).Some?
    then None
    else if !WritesSomething(patch) then Some(Affected(0, st))
    else Some(Affected(Count(st.users, hit), st.(users := UpdateWhere(st.users, hit, (u: User) => Patched(c, patch, u)))))
  }

  /** `register`: the stored row holds the hash of the password, never the
      password, and the role defaults to student; the answer carries the row
      and a token signed over exactly its `{id, role}`. A duplicate email is
      refused by the unique column and nothing changes. */
  function Register(c: Crypto, st: Store, reg: Registration): (r: Reply)
    ensures (exists u :: u in st.users && u.email == reg.email) ==> r == Reply(InternalError, st)
    ensures (forall u :: u in st.users ==> u.email != reg.email) ==>
      && r.response.Session?
      && r.response.user.firstName == reg.firstName && r.response.user.lastName == reg.lastName
      && r.response.user.email == reg.email
      && r.response.user.password == c.hash(reg.password)
      && r.response.user.role == (if reg.role.Some? then reg.role.value else Student)
      && r.response.token == c.sign(Identity(r.response.user.id, r.response.user.role))
      && r.store.users == st.users + [r.response.user]
      && r.store.subjects == st.subjects && r.store.grades == st.grades
      && r.store.nextSubjectId == st.nextSubjectId && r.store.nextGradeId == st.nextGradeId
      && (FreshCounters(st) ==> !UserExists(st, r.response.user.id))
  {
    if FindUserByEmail(st, reg.email).Some? then Reply(InternalError, st)
    else
      var u := User(st.nextUserId, reg.firstName, reg.lastName, reg.email, c.hash(reg.password), reg.role.GetOr(Student));
      Reply(Session(u, IssueToken(c, u)), st.(users := st.users + [u], nextUserId := st.nextUserId + 1))
  }

  /** `login`: a session for the user with that email when the password
      matches its stored hash; an unknown email and a wrong password get the
      very same answer, and the store never changes. */
  function Login(c: Crypto, st: Store, email: string, password: string): (r: Reply)
    ensures r.store == st
    ensures r.response.Session? || r.response == AuthenticationFailed
    ensures r.response.Session? ==>
      && r.response.user in st.users && r.response.user.email == email
      && c.compare(password, r.response.user.password)
      && r.response.token == c.sign(Identity(r.response.user.id, r.response.user.role))
    ensures UniqueNames(st) ==>
      (r.response.Session? <==> exists u :: u in st.users && u.email == email && c.compare(password, u.password))
  {
    match FindUserByEmail(st, email)
    case None => Reply(AuthenticationFailed, st)
    case Some(u) =>
      if c.compare(password, u.password) then Reply(Session(u, IssueToken(c, u)), st)
      else Reply(AuthenticationFailed, st)
  }

  /** `getProfile`: the row whose id is the caller's token id, or "User not found.". */
  function GetProfile(st: Store, caller: Identity): (r: Reply)
    ensures r.store == st
    ensures !UserExists(st, caller.id) ==> r.response == ProfileMissing
    ensures UserExists(st, caller.id) ==> r.response.ProfileBody? && r.response.user in st.users && r.response.user.id == caller.id
  {
    match FindUser(st, caller.id)
    case None => Reply(ProfileMissing, st)
    case Some(u) => Reply(ProfileBody(u), st)
  }

  /** `updateProfile`: only the caller's own row changes, taking the given
      fields, its role never, and its password only when a new one is given;
      "User not found" when no row matched or nothing was written. */
  function UpdateProfile(c: Crypto, st: Store, caller: Identity, patch: ProfilePatch): (r: Reply)
    ensures EmailClash(st, caller.id, patch) ==> r == Reply(InternalError, st)
    ensures !UserExists(st, caller.id) || !WritesSomething(patch) ==> r == Reply(UserNotFound, st)
    ensures UserExists(st, caller.id) && WritesSomething(patch) && !EmailClash(st, caller.id, patch) ==>
      && r.response == ProfileUpdated
      && |r.store.users| == |st.users|
      && (forall i :: 0 <= i < |st.users| && st.users[i].id != caller.id ==> r.store.users[i] == st.users[i])
      && (forall i :: 0 <= i < |st.users| && st.users[i].id == caller.id ==>
            r.store.users[i] == Patched(c, patch, st.users[i]))
      && r.store == st.(users := r.store.users)
  {
    match UpdateUserRow(c, st, caller.id, patch)
    case None => Reply(InternalError, st)
    case Some(a) => if a.rows > 0 then Reply(ProfileUpdated, a.store) else Reply(UserNotFound, st)
  }

  // ---------------------------------------------------------------------------
  // Properties across calls
  // ---------------------------------------------------------------------------

  /** A password registered with a sound hash logs in straight away, and the
      session is for the registered row. */
  lemma RegisterThenLogin(c: Crypto, st: Store, reg: Registration)
    requires Sound(c) && Valid(st)
    requires forall u :: u in st.users ==> u.email != reg.email
    ensures var r := Register(c, st, reg);
      Login(c, r.store, reg.email, reg.password).response == Session(r.response.user, r.response.token)
  {
    var r := Register(c, st, reg);
    var u := r.response.user;
    assert forall v :: v in r.store.users && v.email == reg.email ==> v == u;
  }

  /** Failed logins cannot be told apart: whatever the email and password,
      a failure is the same answer on the same store. */
  lemma LoginFailuresAlike(c: Crypto, st: Store, e1: string, p1: string, e2: string, p2: string)
    requires !Login(c, st, e1, p1).response.Session? && !Login(c, st, e2, p2).response.Session?
    ensures Login(c, st, e1, p1) == Login(c, st, e2, p2) == Reply(AuthenticationFailed, st)
  {
  }

  // ---------------------------------------------------------------------------
  // The account handlers keep a well-formed store well formed
  // ---------------------------------------------------------------------------

  lemma RegisterKeepsValid(c: Crypto, st: Store, reg: Registration)
    requires Valid(st)
    ensures Valid(Register(c, st, reg).store)
  {
    var r := Register(c, st, reg);
    if r.response.Session? {
      assert forall u :: u in r.store.users ==> u in st.users || u == r.response.user;
      forall g | g in r.store.grades && g.studentId.Some?
        ensures UserExists(r.store, g.studentId.value)
      {
        var u :| u in st.users && u.id == g.studentId.value;
        assert u in r.store.users;
      }
    }
  }

  /** A patch that does not clash keeps the emails of the users table
      unique. */
  lemma PatchKeepsEmailsUnique(c: Crypto, st: Store, users: seq<User>, id: nat, patch: ProfilePatch)
    requires PrimaryKeys(st) && UniqueNames(st) && !EmailClash(st, id, patch)
    requires |users| == |st.users|
    requires forall i :: 0 <= i < |st.users| ==>
      users[i] == if st.users[i].id == id then Patched(c, patch, st.users[i]) else st.users[i]
    ensures forall u, v :: u in users && v in users && u.email == v.email ==> u == v
  {
    forall u, v | u in users && v in users && u.email == v.email
      ensures u == v
    {
      var i :| 0 <= i < |users| && users[i] == u;
      var j :| 0 <= j < |users| && users[j] == v;
      var a, b := st.users[i], st.users[j];
      assert a in st.users && b in st.users;
      if a.id == id && b.id == id {
        assert a == b;
      } else if a.id != id && b.id != id {
        assert a == b;
      }
    }
  }

  /** The shared row update keeps the store well formed: ids, roles and the
      set of user ids stay, and a clashing email is never written. */
  lemma UpdateUserRowKeepsValid(c: Crypto, st: Store, id: nat, patch: ProfilePatch)
    requires Valid(st)
    ensures UpdateUserRow(c, st, id, patch).Some? ==> Valid(UpdateUserRow(c, st, id, patch).value.store)
  {
    if UpdateUserRow(c, st, id, patch).Some? {
      var st' := UpdateUserRow(c, st, id, patch).value.store;
      RemappedUsers(st, st', (u: User) => if u.id == id then Patched(c, patch, u) else u);
      PatchKeepsEmailsUnique(c, st, st'.users, id, patch);
    }
  }

  lemma UpdateProfileKeepsValid(c: Crypto, st: Store, caller: Identity, patch: ProfilePatch)
    requires Valid(st)
    ensures Valid(UpdateProfile(c, st, caller, patch).store)
  {
    UpdateUserRowKeepsValid(c, st, caller.id, patch);
  }
}

=== FILE: wrappers.dfy ===
/** The optional value used for nullable columns, absent request fields and
    lookups that may find nothing (`null`/`undefined` in the JavaScript handlers). */
module Wrappers {

  datatype Option<+T> = None | Some(value: T) {

    /** The wrapped value, or `default` when there is none. */
    function GetOr(default: T): T {
      match this
      case Some(v) => v
      case None => default
    }
  }
}
